=== FILE: README.md ===
# EDTS arithmetic expressions in Dafny

A model of `parser_edts.py`, a small syntax-directed translation scheme
(EDTS). It lexes arithmetic expressions over numbers, identifiers,
`+ - * /` and parentheses, and parses them by recursive descent into a
syntax tree. It then decorates every node with its value in a post-order
walk that reads identifiers from a symbol table.

The modules follow the program's structure:

| file | module | models |
|---|---|---|
| `wrappers.dfy` | `Wrappers` | `Option` and `Result` |
| `literals.dfy` | `Literals` | the character classes of the token patterns and the digit values |
| `tokens.dfy` | `Tokens`, `Errors` | `Token`, its kinds, and the exceptions raised (`SyntaxError`, `NameError`, `ZeroDivisionError`, `ValueError`) |
| `lexer.dfy` | `Lexer`, `LexerFacts` | `TOKEN_SPEC` and `Lexer._tokenize`, with their properties |
| `values.dfy` | `Values` | Python's `int`/`float` values, literal conversion, the four operators |
| `ast.dfy` | `Ast` | `NumberNode`, `IdNode`, `BinOpNode` and the decorated tree |
| `symbols.dfy` | `Symbols` | `Symbol` and `SymbolTable.add` / `get` |
| `parser.dfy` | `Parser` | `eat`, `parse`, `expr`, `term`, `factor` |
| `evaluator.dfy` | `Evaluator` | `Evaluator.eval` |
| `roundtrip.dfy` | `RoundTrip` | a printer that is the parser's inverse |
| `pipeline.dfy` | `Pipeline` | parse-then-evaluate |
| `examples.dfy` | `Examples` | the driver's sample inputs and some error inputs |

Modelling choices:

- **Lexer.** The generator becomes a function `Scan` from the text to the
  token list it would yield. The list ends with `EOF`, or with a
  `Mismatch` marker at the first character no pattern matches.
- **Lazy lexing.** The parser pulls tokens one at a time, so `Eat` turns
  the marker into a `LexError` only when it reaches it. As in the code,
  `3 3 &` is reported as trailing input, not as a lexical error.
  - `Tokenize` is the eager reading of the same stream.
- **Parser.** Each rule is a function from the remaining tokens to a
  `Result` of the node built and the tokens left.
- **Evaluator.** `Evaluate` returns the decorated tree, which plays the
  role of the `.val` attributes, or the error that aborts the walk.
- **Numbers.** Python `float`s are modelled as exact reals and `int`s as
  unbounded integers. CPython is narrower on both counts: it refuses to
  convert integer literals that are too long, and it turns huge decimal
  literals into `inf` (see "Left out").

## Model

| member | source | states |
|---|---|---|
| Lexer.Scan | parser_edts.py:33-47 | the stream is framed: every token but the last is a real token whose lexeme fits its kind, and the last is EOF or a one-character mismatch taken from the input |
| Lexer.Tokenize | parser_edts.py:33-47 | on success the list ends with the single EOF token and holds only non-empty, well-fitting lexemes; on failure the error is a LexError on one input character that no pattern accepts, or a stray '.' |
| Lexer.NumberLength | parser_edts.py:6 | the NUMBER match at a digit is a non-empty prefix in the language `\d+(\.\d+)?` |
| Lexer.IdentLength | parser_edts.py:7 | the ID match is a maximal `[a-zA-Z_]\w*` prefix |
| LexerFacts.NumberLengthIsLongest | parser_edts.py:5-16 | no longer prefix is a NUMBER lexeme, so a number is matched longest-first |
| LexerFacts.ScanLexemes | parser_edts.py:33-47 | when the scan reaches EOF, the lexemes concatenated are exactly the input with spaces and tabs removed |
| LexerFacts.TokenizeLexemes | parser_edts.py:33-47 | the same for a successful `Tokenize` |
| LexerFacts.RejectsDisallowed | parser_edts.py:45-46 | any character outside the token patterns, anywhere in the input, makes tokenizing fail with a LexError |
| LexerFacts.AcceptsDotFree | parser_edts.py:5-47 | text made only of accepted characters and no '.' always tokenizes |
| LexerFacts.ScanToken | parser_edts.py:34-42 | a token followed by a delimiter is scanned as itself, followed by the scan of the rest |
| LexerFacts.ScanBlank | parser_edts.py:43-44 | a blank adds no token |
| LexerFacts.ScanMismatch | parser_edts.py:45-46 | a character that starts no token and is no blank ends the scan with the MISMATCH marker for that character alone |
| Values.LiteralValue | parser_edts.py:60 | a literal converts to an `int` exactly when it has no '.' |
| Values.DecimalLiteralScales | parser_edts.py:60 | `float("p.q")` is the integer spelled by `pq` divided by 10 to the power of the length of `q` |
| Values.IntegerLiteralRoundTrip | parser_edts.py:60 | `int` of the decimal digits of `n` is `n` |
| Values.Apply | parser_edts.py:184-195 | succeeds exactly for `+ - * /` with a non-zero divisor; the error is ZeroDivisionError or ValueError accordingly; the result is the exact real-number operation, and it is an `int` exactly when neither operand is a `float` and the operator is not `/` |
| Ast.NewNumberNode | parser_edts.py:56-60 | the node keeps the literal text, and its value is an `int` exactly when the text has no '.' |
| Ast.WellFormedOpsClosed | parser_edts.py:76 | a tree the parser can build uses only the four operators |
| Symbols.Get | parser_edts.py:99-100 | a lookup finds the bound symbol, or gives `None` for an unbound name; it never fails |
| Symbols.Add | parser_edts.py:96-97 | the name is bound to the new symbol; every other name keeps its binding; the keys gain exactly that name |
| Symbols.AddLastWriteWins | parser_edts.py:96-97 | a second `add` of a name replaces the first entirely |
| Symbols.AddCommutes | parser_edts.py:96-97 | adding distinct names gives the same table in either order, so the table `main` fills from a dict (parser_edts.py:228-229), and every lookup and evaluation against it, do not depend on the order of that loop; only the left-out `__repr__` shows that order |
| Symbols.AddKeepsKeyed | parser_edts.py:96-97 | every entry stays filed under its own symbol's name |
| Parser.Eat | parser_edts.py:113-118 | consumes the lookahead exactly when it has the expected kind; otherwise it fails naming the expected kind and the token found; pulling a lexical error fails with it |
| Parser.Expr | parser_edts.py:126-136 | on success tokens were consumed, the tree is well formed, and the next token is no operator; failures are syntax errors |
| Parser.ExprLoop | parser_edts.py:128-135 | the `+`/`-` loop stops only at a token that is no operator, and keeps the stream's end |
| Parser.Term | parser_edts.py:138-148 | on success tokens were consumed, the tree is well formed, and the next token is no `*` or `/` |
| Parser.TermLoop | parser_edts.py:140-147 | the `*`/`/` loop stops only at a token that is not `*` or `/` |
| Parser.Factor | parser_edts.py:150-165 | succeeds only on a lookahead that is `(`, a number or a name, and then consumes at least one token; any other lookahead fails with the unexpected-factor error naming it |
| Parser.Parse | parser_edts.py:109-124 | a lexical error as the first token fails with that error, as the constructor's first pull raises it; a successful parse consumed a stream ending in EOF that holds no lexical error, and built a well-formed tree that `expr` read with nothing but EOF after it; failures are syntax errors |
| Parser.ParseText | parser_edts.py:108-124 | a successful parse implies the whole text tokenizes |
| Evaluator.Evaluate | parser_edts.py:171-196 | on success the decorated tree erases back to the input tree; every error is blamed on an unbound identifier, a `/`, or an unknown operator of the tree |
| Evaluator.EvaluateIffConsistent | parser_edts.py:171-196 | evaluation yields a decoration exactly when that decoration obeys the semantic rules at every node, so the decoration is unique |
| Evaluator.ReevaluationIsIdempotent | parser_edts.py:171-196 | evaluating an already decorated tree again gives the same decorations |
| Evaluator.SubtreesSelfEvaluate | parser_edts.py:181-196 | each node's decoration is what evaluating that subtree alone gives |
| Evaluator.EvaluateReadsOnlyIds | parser_edts.py:175-180 | the result depends on the table only at the tree's identifiers |
| Evaluator.UnboundIdentifierFails | parser_edts.py:175-178 | a tree mentioning an unbound name cannot evaluate |
| Evaluator.ClosedTreesHaveNoUnknownOperator | parser_edts.py:194-195 | the ValueError branch never fires on trees with only `+ - * /` |
| Evaluator.IntegralResult | parser_edts.py:171-196 | the result is an `int` exactly when the tree has no `/`, no decimal literal and no float-bound identifier |
| Evaluator.EvaluateAgreesWithDenote | parser_edts.py:171-196 | evaluation succeeds exactly when the exact real-number meaning of the tree is defined, and then gives that number |
| Evaluator.Eval | parser_edts.py:171-196 | the value returned is defined exactly when the real-number meaning of the tree is, and equals it; every error is blamed on an unbound identifier, a `/` or an unknown operator of the tree |
| Evaluator.EvalBinOp | parser_edts.py:181-196 | once both operands have values, an operator node's outcome is its operator applied to those values |
| Evaluator.LeftErrorWins | parser_edts.py:182-183 | the left operand is evaluated first, so its error is the node's error whatever the right operand would do |
| Evaluator.DivisionByZeroFails | parser_edts.py:190-192 | a `/` whose operands evaluate and whose divisor is zero fails with the division-by-zero error |
| RoundTrip.ParseRoundTrip | parser_edts.py:120-165 | printing any well-formed tree as tokens with minimal parentheses and parsing the result gives back the tree |
| RoundTrip.ExprRoundTrip | parser_edts.py:126-136 | on the printout of a tree followed by any tokens that do not start with `*` or `/`, `expr` reads exactly the printout and hands that tree, with the following tokens, to its operator loop |
| RoundTrip.TermRoundTrip | parser_edts.py:138-148 | on the printout of a tree followed by any tokens, `term` reads exactly the printout and hands that tree, with the following tokens, to its operator loop |
| RoundTrip.FactorRoundTrip | parser_edts.py:150-165 | on the printout of a tree as a factor (in parentheses unless it is a number or a name) followed by any tokens, `factor` returns that tree and exactly those following tokens |
| RoundTrip.TextRoundTrip | parser_edts.py:108-165 | the printed text of any well-formed tree tokenizes to its tokens, and lexing plus parsing gives back the tree |
| RoundTrip.ScanLayout | parser_edts.py:33-47 | tokens laid out with separating blanks scan back to the same tokens followed by EOF |
| RoundTrip.SumsAssociateLeft | parser_edts.py:126-136 | a chain `a op1 b op2 c ...` of `+` and `-` parses to the left-nested tree |
| RoundTrip.ProductsAssociateLeft | parser_edts.py:138-148 | the same for a chain of `*` and `/` |
| RoundTrip.ProductBindsTighterOnRight | parser_edts.py:126-148 | `a + b * c` parses as `a + (b * c)`, for both additive and both multiplicative operators |
| RoundTrip.ProductBindsTighterOnLeft | parser_edts.py:126-148 | `a * b + c` parses as `(a * b) + c` |
| RoundTrip.ParenthesesAddNoNode | parser_edts.py:151-155 | a parenthesised expression parses to the same tree as the bare one |
| RoundTrip.TrailingInputRejected | parser_edts.py:120-124 | a complete expression followed by a token that neither continues it nor is EOF is rejected as trailing input naming that token |
| RoundTrip.UnclosedParenthesis | parser_edts.py:151-154 | a group whose expression is followed by anything but an operator or `)` fails expecting `)` |
| Pipeline.Run | parser_edts.py:234-246 | a text that parses to a tree whose real-number meaning is defined runs to a value, and every value is that meaning; a failure is either exactly the parse's syntax error or an error blamed on a node of the tree the text parsed to |
| Pipeline.RunNeverMeetsUnknownOperator | parser_edts.py:234-246 | parse-then-evaluate never fails with the unknown-operator error, and a run with a value lexed its whole text |
| Pipeline.RunShow | parser_edts.py:234-246 | running the printed text of a tree evaluates that tree |
| Examples.SumParses | parser_edts.py:218 | `3 + 5 * 2` parses with the product grouped |
| Examples.SumValue | parser_edts.py:218 | its value is the `int` 13 |
| Examples.MixedParses | parser_edts.py:219 | `(3 + 5) * 2 - 4 / 2` parses to `((3 + 5) * 2) - (4 / 2)` |
| Examples.MixedValue | parser_edts.py:219 | its value is the `float` 14.0 |
| Examples.NestedParses | parser_edts.py:220 | `3 + x * (2 + y)` parses with the group as the right factor |
| Examples.NestedValue | parser_edts.py:220-229 | with x = 5 and y = 1 added to the table, the value is the `int` 18 |
| Examples.QuotientParses | parser_edts.py:221 | `a / b + 10` parses to `(a / b) + 10` |
| Examples.QuotientValue | parser_edts.py:221-229 | with a = 20 and b = 4, the value is the `float` 15.0 |
| Examples.UnboundParses | parser_edts.py:254-259 | `z + 1` parses |
| Examples.UnboundFails | parser_edts.py:254-264 | against an empty table, evaluation fails naming `z` |
| Examples.ZeroDivisorFails | parser_edts.py:190-192 | `1 / 0` fails with the division-by-zero error |
| Examples.DecimalValue | parser_edts.py:188-189 | `2.5 * 2` is the `float` 5.0 |
| Examples.LeadingAmpersand | parser_edts.py:109-111 | `& 1` fails with the lexical error on `&` both when parsed and when run, since the first pull meets it |
| Examples.AmpersandRejected | parser_edts.py:45-46 | `3 & 2` fails to tokenize and to parse, with a lexical error on `&` |
| Examples.TrailingBeforeLexError | parser_edts.py:120-124 | `3 3 &` fails to tokenize, but the parser reports the trailing `3` first, because the lexer is lazy |
| Examples.MissingOperand | parser_edts.py:164-165 | `3 +` fails at EOF with the unexpected-factor error |
| Examples.MissingParenthesis | parser_edts.py:151-154 | `(3 + 5` fails expecting `)` at EOF |

## Left out

- `main` and `print_ast` (parser_edts.py:200-264): printing only. Their sample inputs appear as the `Examples` lemmas, and the parse and evaluation steps as `Pipeline.Run`. `Parser(lexer)` stands outside the try-block (parser_edts.py:234, 257), so when the first token is a lexical error, as in `& 1`, the exception escapes `main`; `Run` instead returns `Err(LexError("&"))`.
- The `__repr__` methods: display only. Error messages are modelled as constructors carrying the offending token, name or character, not as text.
- The regular-expression engine: `Scan` is a hand-written scanner with the behaviour of `re.finditer` over the alternation. Longest match, pattern order and the MISMATCH fallback are modelled as described.
- Lexer.InDomain: non-ASCII text and newlines are outside the model. Unicode digits and letters would change `\d` and `\w`, and `.` does not match a newline, which `re.finditer` would then silently skip.
- Values.Apply: floats are exact reals, so IEEE-754 rounding, infinities and `OverflowError` are not modelled. This can change the outcome, not only the value: `1 / (0.1 + 0.2 - 0.3)` is about 1.8e16 in Python but a division by zero in the model, and a product that underflows to `0.0` in Python is a non-zero divisor in the model.
- Values.LiteralValue: `float(number_text)` (parser_edts.py:60) rounds a decimal literal such as `0.1` to the nearest double, and gives `inf` for one with more than about 309 integer digits; the model keeps the exact value. `int(number_text)` raises `ValueError` on CPython 3.11 and later for a literal of more than 4300 digits (the default `int_max_str_digits`); the model converts every literal.
- Ast.NewNumberNode: builds a node for every NUMBER lexeme. On CPython 3.11 and later, an integer literal of more than 4300 digits makes the constructor raise `ValueError` inside `factor`, which `main` reports as a parse error (parser_edts.py:237-238); the model parses and evaluates it. A decimal literal with more than about 309 integer digits gets the value `inf` in Python, not its exact value.
- Values.DecimalLiteralScales: states the exact value of a decimal literal, which `float` only approximates.
- Evaluator.Evaluate: `eval` writes `.val` into the nodes as it goes (parser_edts.py:179, 185-193), so when it raises, the nodes already evaluated keep their new values; the model returns only the error and says nothing of that partial decoration.
- The `TypeError` fallback of `eval` (parser_edts.py:197-198): the three node kinds are a closed datatype, so an unknown node cannot occur.
- The `tipo` field of `Symbol`: always "number" and never read.
- Symbols.Add: takes a value, so the `valor=None` default is not modelled. An identifier bound to `None` would make `+ - * /` fail with a `TypeError`, except that a zero divisor still raises `ZeroDivisionError` first (parser_edts.py:191-192), and a lone identifier bound to `None` evaluates to `None` without error (parser_edts.py:179-180).
- `Lexer.next` (parser_edts.py:49-50): folded into `Eat`, which advances over the stream and meets the lexical error when it pulls it.
- Python's recursion limit: deeply nested input would raise `RecursionError`, while the model's recursion is unbounded.
- The `Parser` constructor (parser_edts.py:109-111) has no member of its own. It pulls the first token and can raise the lexical error itself; `Parse` models this by checking the head of the stream before `expr`.

=== FILE: ast.dfy ===
/** The syntax tree (parser_edts.py:52-81) and its decorated form, the
    same tree with the `.val` attribute of every node filled in. */
module Ast {
  import opened Literals
  import opened Values

  /** `NumberNode` keeps the value its constructor computed eagerly from
      the literal text; `BinOpNode.op` is the operator's lexeme. */
  datatype Node =
    | NumberNode(text: string, value: Value)
    | IdNode(name: string)
    | BinOpNode(op: string, left: Node, right: Node)

  /** The constructor `NumberNode(number_text)` (parser_edts.py:57-60). */
  function NewNumberNode(text: string): (n: Node)
    ensures n.NumberNode? && n.text == text
    ensures n.value.Int? <==> '.' !in text
  {
    NumberNode(text, LiteralValue(text))
  }

  /** A tree after evaluation: every node carries its `.val`. */
  datatype Decorated =
    | DNumber(text: string, val: Value)
    | DId(name: string, val: Value)
    | DBinOp(op: string, left: Decorated, right: Decorated, val: Value)

  /** The syntax underneath the decorations. */
  function Erase(d: Decorated): Node {
    match d
    case DNumber(text, v) => NumberNode(text, v)
    case DId(name, _) => IdNode(name)
    case DBinOp(op, l, r, _) => BinOpNode(op, Erase(l), Erase(r))
  }

  /** The identifiers a tree mentions. */
  function Ids(n: Node): set<string> {
    match n
    case NumberNode(_, _) => {}
    case IdNode(name) => {name}
    case BinOpNode(_, l, r) => Ids(l) + Ids(r)
  }

  /** The operators a tree uses. */
  function Ops(n: Node): set<string> {
    match n
    case NumberNode(_, _) => {}
    case IdNode(_) => {}
    case BinOpNode(op, l, r) => {op} + Ops(l) + Ops(r)
  }

  /** Every operator is one of `+ - * /`. */
  predicate OpsClosed(n: Node) {
    match n
    case NumberNode(_, _) => true
    case IdNode(_) => true
    case BinOpNode(op, l, r) => IsArithOp(op) && OpsClosed(l) && OpsClosed(r)
  }

  /** A tree the parser can build: closed operators, literal texts in the
      NUMBER language with their eagerly computed values, and names in the
      ID language. */
  predicate WellFormed(n: Node) {
    match n
    case NumberNode(text, v) => IsNumberLexeme(text) && v == LiteralValue(text)
    case IdNode(name) => IsIdentifier(name)
    case BinOpNode(op, l, r) => IsArithOp(op) && WellFormed(l) && WellFormed(r)
  }

  lemma {:induction false} WellFormedOpsClosed(n: Node)
    requires WellFormed(n)
    ensures OpsClosed(n)
  {
    if n.BinOpNode? {
      WellFormedOpsClosed(n.left);
      WellFormedOpsClosed(n.right);
    }
  }

  lemma {:induction false} OpsClosedMeansArithOps(n: Node)
    requires OpsClosed(n)
    ensures forall op :: op in Ops(n) ==> IsArithOp(op)
  {
    if n.BinOpNode? {
      OpsClosedMeansArithOps(n.left);
      OpsClosedMeansArithOps(n.right);
    }
  }
}

=== FILE: evaluator.dfy ===
/** The evaluator (parser_edts.py:167-198): a post-order walk that resolves
    identifiers in the symbol table, applies the operators and records each
    node's value in its `.val` attribute. The decorated tree it returns is
    that attribute for every node; the table is only read. */
module Evaluator {
  import opened Wrappers
  import opened Values
  import opened Errors
  import opened Ast
  import opened Symbols

  /** Where an evaluation error comes from: an unbound identifier of the
      tree, a `/` of the tree, or an operator outside `+ - * /`. */
  predicate Blames(n: Node, t: Table, e: Error) {
    || (e.UndefinedIdentifier? && e.name in Ids(n) && e.name !in t)
    || (e == DivisionByZero && "/" in Ops(n))
    || (e.UnknownOperator? && e.op in Ops(n) && !IsArithOp(e.op))
  }

  /** `eval(node)`: evaluate the left operand, then the right one, then
      the operator; the first error aborts the walk. */
  function Evaluate(n: Node, t: Table): (r: Result<Decorated, Error>)
    ensures r.Ok? ==> Erase(r.value) == n
    ensures r.Err? ==> Blames(n, t, r.error)
  {
    match n
    case NumberNode(text, v) =>
      Ok(DNumber(text, v))
    case IdNode(name) =>
      (match Get(t, name)
       case None => Err(UndefinedIdentifier(name))
       case Some(sym) => Ok(DId(name, sym.value)))
    case BinOpNode(op, l, r) =>
      var dl :- Evaluate(l, t);
      var dr :- Evaluate(r, t);
      var v :- Apply(op, dl.val, dr.val);
      Ok(DBinOp(op, dl, dr, v))
  }

  /** The value `eval` returns: the root's decoration. It is defined
      exactly when the reference meaning of the tree is, and is then that
      number; every error is blamed on a node of the tree. */
  function Eval(n: Node, t: Table): (r: Result<Value, Error>)
    ensures r.Ok? <==> Denote(n, Reals(t)).Some?
    ensures r.Ok? ==> Denote(n, Reals(t)) == Some(Real(r.value))
    ensures r.Err? ==> Blames(n, t, r.error)
  {
    EvaluateAgreesWithDenote(n, t);
    var d :- Evaluate(n, t);
    Ok(d.val)
  }

  /** The semantic rules of the translation scheme, checked node by node:
      a literal carries its own value, an identifier the value bound to it,
      and an operator node the result of its operator on its children's
      decorations. */
  predicate Consistent(d: Decorated, t: Table) {
    match d
    case DNumber(_, _) => true
    case DId(name, v) => name in t && t[name].value == v
    case DBinOp(op, l, r, v) => Consistent(l, t) && Consistent(r, t) && Apply(op, l.val, r.val) == Ok(v)
  }

  /** Evaluation succeeds with `d` exactly when `d` decorates `n` according
      to the semantic rules: the evaluator computes the one consistent
      decoration and nothing else. */
  lemma {:induction false} EvaluateIffConsistent(n: Node, t: Table, d: Decorated)
    ensures Evaluate(n, t) == Ok(d) <==> Erase(d) == n && Consistent(d, t)
  {
    match d
    case DNumber(_, _) =>
    case DId(_, _) =>
    case DBinOp(op, l, r, v) =>
      if n.BinOpNode? {
        EvaluateIffConsistent(n.left, t, l);
        EvaluateIffConsistent(n.right, t, r);
      }
  }

  /** Re-evaluating a decorated tree with the same table reproduces every
      decoration (the idempotence of a second `eval` pass). In this
      functional model it is immediate, because `Evaluate` guarantees that
      its result erases back to the tree it was given. */
  lemma ReevaluationIsIdempotent(n: Node, t: Table)
    requires Evaluate(n, t).Ok?
    ensures Evaluate(Erase(Evaluate(n, t).value), t) == Evaluate(n, t)
  {
    EvaluateIffConsistent(n, t, Evaluate(n, t).value);
  }

  /** Every node of the decorated tree carries what evaluating its own
      subtree alone yields. */
  predicate EverySubtreeSelfEvaluates(d: Decorated, t: Table) {
    && Evaluate(Erase(d), t) == Ok(d)
    && match d
       case DBinOp(_, l, r, _) => EverySubtreeSelfEvaluates(l, t) && EverySubtreeSelfEvaluates(r, t)
       case _ => true
  }

  lemma {:induction false} SubtreesSelfEvaluate(n: Node, t: Table)
    requires Evaluate(n, t).Ok?
    ensures EverySubtreeSelfEvaluates(Evaluate(n, t).value, t)
  {
    if n.BinOpNode? {
      SubtreesSelfEvaluate(n.left, t);
      SubtreesSelfEvaluate(n.right, t);
    }
  }

  /** Evaluation reads the table only at the tree's identifiers: two tables
      that agree there give the same result, error or decoration. */
  lemma {:induction false} EvaluateReadsOnlyIds(n: Node, t1: Table, t2: Table)
    requires forall x :: x in Ids(n) ==> Get(t1, x) == Get(t2, x)
    ensures Evaluate(n, t1) == Evaluate(n, t2)
  {
    if n.BinOpNode? {
      EvaluateReadsOnlyIds(n.left, t1, t2);
      EvaluateReadsOnlyIds(n.right, t1, t2);
    } else if n.IdNode? {
      assert n.name in Ids(n);
    }
  }

  /** An identifier with no binding makes evaluation fail, whatever the
      rest of the tree holds. */
  lemma {:induction false} UnboundIdentifierFails(n: Node, t: Table, x: string)
    requires x in Ids(n) && x !in t
    ensures Evaluate(n, t).Err?
  {
    if n.BinOpNode? {
      if x in Ids(n.left) {
        UnboundIdentifierFails(n.left, t, x);
      } else {
        UnboundIdentifierFails(n.right, t, x);
      }
    }
  }

  /** Evaluation is compositional: once both operands have values, the
      node's outcome is its operator applied to them. */
  lemma EvalBinOp(op: string, l: Node, r: Node, t: Table)
    requires Eval(l, t).Ok? && Eval(r, t).Ok?
    ensures Eval(BinOpNode(op, l, r), t) == Apply(op, Eval(l, t).value, Eval(r, t).value)
  {
  }

  /** A `/` whose right operand evaluates to zero fails, and its error
      reaches the caller unless an operand failed first. */
  lemma DivisionByZeroFails(l: Node, r: Node, t: Table)
    requires Evaluate(l, t).Ok? && Evaluate(r, t).Ok?
    requires Real(Evaluate(r, t).value.val) == 0.0
    ensures Evaluate(BinOpNode("/", l, r), t) == Err(DivisionByZero)
  {
  }

  /** The left operand is evaluated first: its error wins over anything
      the right operand would raise. */
  lemma LeftErrorWins(op: string, l: Node, r: Node, t: Table)
    requires Evaluate(l, t).Err?
    ensures Evaluate(BinOpNode(op, l, r), t) == Err(Evaluate(l, t).error)
  {
  }

  /** The unknown-operator branch cannot fire on a tree whose operators are
      all `+ - * /`. */
  lemma {:induction false} ClosedTreesHaveNoUnknownOperator(n: Node, t: Table)
    requires OpsClosed(n)
    ensures Evaluate(n, t).Err? ==> !Evaluate(n, t).error.UnknownOperator?
  {
    OpsClosedMeansArithOps(n);
  }

  /** A tree whose value stays an `int`: no `/`, no decimal literal and no
      identifier bound to a float. */
  predicate Integral(n: Node, t: Table) {
    match n
    case NumberNode(_, v) => v.Int?
    case IdNode(name) => name in t && t[name].value.Int?
    case BinOpNode(op, l, r) => op != "/" && Integral(l, t) && Integral(r, t)
  }

  /** Python's promotion policy: the result is an `int` exactly when the
      tree is integral; one `/`, decimal literal or float binding anywhere
      makes it a `float` (so `4 / 2` is `2.0`). */
  lemma {:induction false} IntegralResult(n: Node, t: Table)
    requires Evaluate(n, t).Ok?
    ensures Evaluate(n, t).value.val.Int? <==> Integral(n, t)
  {
    if n.BinOpNode? {
      IntegralResult(n.left, t);
      IntegralResult(n.right, t);
    }
  }

  /** Reference semantics over the reals, with no int/float distinction and
      no evaluation order: `None` when a name is unbound, a divisor is zero
      or an operator is unknown. */
  function Denote(n: Node, env: map<string, real>): Option<real> {
    match n
    case NumberNode(_, v) => Some(Real(v))
    case IdNode(name) => if name in env then Some(env[name]) else None
    case BinOpNode(op, l, r) =>
      match (Denote(l, env), Denote(r, env))
      case (Some(a), Some(b)) => RealOp(op, a, b)
      case _ => None
  }

  /** The numbers a table binds. */
  function Reals(t: Table): map<string, real> {
    map x | x in t :: Real(t[x].value)
  }

  /** The evaluator computes the reference value whenever that value is
      defined, and fails exactly when it is not; int/float promotion never
      changes the number. */
  lemma {:induction false} EvaluateAgreesWithDenote(n: Node, t: Table)
    ensures Evaluate(n, t).Ok? <==> Denote(n, Reals(t)).Some?
    ensures Evaluate(n, t).Ok? ==> Denote(n, Reals(t)) == Some(Real(Evaluate(n, t).value.val))
  {
    match n
    case NumberNode(_, _) =>
    case IdNode(name) =>
      if name in t {
        assert Reals(t)[name] == Real(t[name].value);
      }
    case BinOpNode(op, l, r) =>
      EvaluateAgreesWithDenote(l, t);
      EvaluateAgreesWithDenote(r, t);
      if Evaluate(l, t).Ok? && Evaluate(r, t).Ok? {
        var a, b := Evaluate(l, t).value.val, Evaluate(r, t).value.val;
        var v := Apply(op, a, b);
        var env := Reals(t);
        assert Denote(l, env) == Some(Real(a)) && Denote(r, env) == Some(Real(b));
        if v.Ok? {
          assert Evaluate(n, t) == Ok(DBinOp(op, Evaluate(l, t).value, Evaluate(r, t).value, v.value));
        }
      }
  }
}

=== FILE: examples.dfy ===
/** The sample programs of parser_edts.py:217-222 and 253-264, and one
    input for each error path, worked through from text to value. Each
    text is lexed by `RoundTrip.ScanLayout` or step by step, parsed by the
    round trip or by unfolding the parser, and evaluated. */
module Examples {
  import opened Wrappers
  import opened Literals
  import opened Values
  import opened Tokens
  import opened Errors
  import opened Ast
  import opened Parser
  import opened Symbols
  import opened Evaluator
  import opened RoundTrip
  import Lexer
  import LexerFacts
  import Pipeline

  function Num(text: string): Node {
    NewNumberNode(text)
  }

  // 3 + 5 * 2

  function SumTree(): Node {
    BinOpNode("+", Num("3"), BinOpNode("*", Num("5"), Num("2")))
  }

  function SumTokens(): seq<Token> {
    [Token(Number, "3"), Token(Plus, "+"), Token(Number, "5"), Token(Mul, "*"), Token(Number, "2")]
  }

  /** `3 + 5 * 2` groups the product first. */
  lemma SumParses()
    ensures Lexer.InDomain("3 + 5 * 2")
    ensures ParseText("3 + 5 * 2") == Ok(SumTree())
  {
    SumLayout();
    SumPrints();
    Reads("3 + 5 * 2", SumTokens(), [" ", " ", " ", " ", ""], SumTree());
  }

  /** ... and its value is the int 13. */
  lemma SumValue()
    ensures Eval(SumTree(), Empty) == Ok(Int(13))
  {
  }

  // (3 + 5) * 2 - 4 / 2

  function MixedTree(): Node {
    MixedOf(Token(Number, "3"), Token(Number, "5"), Token(Number, "2"), Token(Number, "4"), Token(Number, "2"))
  }

  function MixedTokens(): seq<Token> {
    MixedGroup() + MixedRest()
  }

  /** Parentheses override precedence, and `-` takes the product and the
      quotient as its operands. */
  lemma MixedParses()
    ensures Lexer.InDomain("(3 + 5) * 2 - 4 / 2")
    ensures ParseText("(3 + 5) * 2 - 4 / 2") == Ok(MixedTree())
  {
    MixedLayout();
    MixedPrints();
    Reads("(3 + 5) * 2 - 4 / 2", MixedTokens(), MixedGaps(), MixedTree());
  }

  /** `4 / 2` is the float 2.0, so the whole value is the float 14.0. */
  lemma MixedValue()
    ensures Eval(MixedTree(), Empty) == Ok(Flt(14.0))
  {
    var a, b, c, d := Num("3"), Num("5"), Num("2"), Num("4");
    assert Eval(a, Empty) == Ok(Int(3)) && Eval(b, Empty) == Ok(Int(5));
    assert Eval(c, Empty) == Ok(Int(2)) && Eval(d, Empty) == Ok(Int(4));
    var sum := BinOpNode("+", a, b);
    EvalBinOp("+", a, b, Empty);
    EvalBinOp("*", sum, c, Empty);
    EvalBinOp("/", d, c, Empty);
    EvalBinOp("-", BinOpNode("*", sum, c), BinOpNode("/", d, c), Empty);
    MixedTreeIs();
  }

  // 3 + x * (2 + y) with x = 5, y = 1

  function NestedTree(): Node {
    BinOpNode("+", Num("3"), BinOpNode("*", IdNode("x"), BinOpNode("+", Num("2"), IdNode("y"))))
  }

  function NestedTokens(): seq<Token> {
    NestedHead() + NestedGroup()
  }

  function NestedTable(): Table {
    Add(Add(Empty, "x", Int(5)), "y", Int(1))
  }

  lemma NestedParses()
    ensures Lexer.InDomain("3 + x * (2 + y)")
    ensures ParseText("3 + x * (2 + y)") == Ok(NestedTree())
  {
    NestedLayout();
    NestedPrints();
    Reads("3 + x * (2 + y)", NestedTokens(), NestedGaps(), NestedTree());
  }

  /** With `x = 5` and `y = 1` the value is the int 18. */
  lemma NestedValue()
    ensures Eval(NestedTree(), NestedTable()) == Ok(Int(18))
  {
  }

  // a / b + 10 with a = 20, b = 4

  function QuotientTree(): Node {
    BinOpNode("+", BinOpNode("/", IdNode("a"), IdNode("b")), Num("10"))
  }

  function QuotientTokens(): seq<Token> {
    [Token(Ident, "a"), Token(Div, "/"), Token(Ident, "b"), Token(Plus, "+"), Token(Number, "10")]
  }

  function QuotientTable(): Table {
    Add(Add(Empty, "a", Int(20)), "b", Int(4))
  }

  lemma QuotientParses()
    ensures Lexer.InDomain("a / b + 10")
    ensures ParseText("a / b + 10") == Ok(QuotientTree())
  {
    QuotientLayout();
    QuotientPrints();
    Reads("a / b + 10", QuotientTokens(), [" ", " ", " ", " ", ""], QuotientTree());
  }

  /** `20 / 4` is the float 5.0, so the value is the float 15.0. */
  lemma QuotientValue()
    ensures Eval(QuotientTree(), QuotientTable()) == Ok(Flt(15.0))
  {
    assert DigitsValue("10") == 10;
    assert 20.0 / 4.0 == 5.0;
  }

  // z + 1 with an empty table (parser_edts.py:253-264)

  function UnboundTree(): Node {
    BinOpNode("+", IdNode("z"), Num("1"))
  }

  lemma UnboundParses()
    ensures Lexer.InDomain("z + 1")
    ensures ParseText("z + 1") == Ok(UnboundTree())
  {
    assert IsIdentifier("z") && IsNumberLexeme("1");
    ReadsBinary(Token(Ident, "z"), "+", Token(Number, "1"));
    UnboundText();
  }

  /** Parsing succeeds; evaluation raises the undefined-identifier error. */
  lemma UnboundFails()
    ensures Eval(UnboundTree(), Empty) == Err(UndefinedIdentifier("z"))
  {
  }

  // 1 / 0

  function ZeroDivisorTree(): Node {
    BinOpNode("/", Num("1"), Num("0"))
  }

  lemma ZeroDivisorFails()
    ensures Eval(ZeroDivisorTree(), Empty) == Err(DivisionByZero)
  {
  }

  // 2.5 * 2

  function DecimalTree(): Node {
    BinOpNode("*", Num("2.5"), Num("2"))
  }

  /** A decimal literal is a float, and so is any product with it. */
  lemma DecimalValue()
    ensures Eval(DecimalTree(), Empty) == Ok(Flt(5.0))
  {
    assert DotIndex("2.5") == 1;
    assert "2.5"[..1] == "2" && "2.5"[2..] == "5";
    assert LiteralValue("2.5") == Flt(2.5);
  }

  // & 1

  /** A lexical error on the first token is met when the parser pulls its
      first token, before any grammar rule runs. */
  lemma LeadingAmpersand(t: Table)
    ensures Lexer.InDomain("& 1")
    ensures ParseText("& 1") == Err(LexError("&"))
    ensures Pipeline.Run("& 1", t) == Err(LexError("&"))
  {
    AmpersandFirst();
  }

  // 3 & 2

  /** A character no pattern accepts is a lexical error, raised when the
      parser pulls it. */
  lemma AmpersandRejected()
    ensures Lexer.InDomain("3 & 2")
    ensures Lexer.Tokenize("3 & 2") == Err(LexError("&"))
    ensures ParseText("3 & 2") == Err(LexError("&"))
  {
    AmpersandScan();
    Scanned("3 & 2", [Token(Number, "3"), Token(Mismatch, "&")]);
    AmpersandParse();
  }

  // 3 3 &

  /** The lexer is lazy: the parser stops at the second `3` with a
      trailing-input error before it ever pulls the `&`, although lexing
      the whole text would fail. */
  lemma TrailingBeforeLexError()
    ensures Lexer.InDomain("3 3 &")
    ensures Lexer.Tokenize("3 3 &") == Err(LexError("&"))
    ensures ParseText("3 3 &") == Err(TrailingInput(Token(Number, "3")))
  {
    TrailingAmpersandScan();
    Scanned("3 3 &", [Token(Number, "3"), Token(Number, "3"), Token(Mismatch, "&")]);
    TrailingAmpersandParse();
  }

  // 3 +

  /** An operator with nothing after it: `factor` finds EOF. */
  lemma MissingOperand()
    ensures Lexer.InDomain("3 +")
    ensures ParseText("3 +") == Err(UnexpectedFactor(Token(Eof, "")))
  {
    MissingOperandScans();
    MissingOperandParse();
  }

  // (3 + 5

  /** An unclosed parenthesis: `eat(RPAREN)` finds EOF. */
  lemma MissingParenthesis()
    ensures Lexer.InDomain("(3 + 5")
    ensures ParseText("(3 + 5") == Err(Expected(RParen, Token(Eof, "")))
  {
    MissingParenthesisScans();
    MissingParenthesisParse();
  }

  // Proof steps for the examples above: how the sample texts are laid
  // out from tokens, how they scan, and the shapes of their trees.

  // Steps shared by several examples

  /** A text laid out from the printed tokens of `n` parses back to `n`. */
  lemma Reads(text: string, ts: seq<Token>, gaps: seq<string>, n: Node)
    requires |gaps| == |ts| && AllReal(ts) && Separated(ts, gaps) && Layout(ts, gaps) == text
    requires WellFormed(n) && ExprTokens(n) == ts
    ensures Lexer.InDomain(text)
    ensures Lexer.Tokenize(text) == Ok(ts + [Token(Eof, "")])
    ensures ParseText(text) == Ok(n)
  {
    ScanLayout(ts, gaps);
    ParseRoundTrip(n);
  }

  /** Two laid-out halves make the layout of the joined lists. */
  lemma Joined(a: seq<Token>, ga: seq<string>, b: seq<Token>, gb: seq<string>, ta: string, tb: string, text: string)
    requires |ga| == |a| && |gb| == |b|
    requires Layout(a, ga) == ta && Layout(b, gb) == tb && ta + tb == text
    ensures |ga + gb| == |a + b| && Layout(a + b, ga + gb) == text
  {
    LayoutAppend(a, ga, b, gb);
  }

  /** Two separated layouts joined where at least one side of the seam is
      a blank or a punctuation character stay separated. */
  lemma SeparatedJoin(a: seq<Token>, ga: seq<string>, b: seq<Token>, gb: seq<string>)
    requires |ga| == |a| > 0 && |gb| == |b| > 0
    requires AllReal(a) && Separated(a, ga) && AllReal(b) && Separated(b, gb)
    requires |ga[|a| - 1]| > 0 || IsPunct(a[|a| - 1].lexeme[0]) || IsPunct(b[0].lexeme[0])
    ensures |ga + gb| == |a + b| && AllReal(a + b) && Separated(a + b, ga + gb)
  {
    var ts, gs := a + b, ga + gb;
    forall i | 0 <= i < |ts|
      ensures Fits(ts[i]) && !Terminal(ts[i])
    {
      if i >= |a| {
        assert ts[i] == b[i - |a|];
      }
    }
    forall i | 0 <= i < |gs|
      ensures AllBlanks(gs[i])
    {
      if i >= |a| {
        assert gs[i] == gb[i - |a|];
      }
    }
    forall i | 0 <= i < |ts| - 1
      ensures |gs[i]| > 0 || IsPunct(ts[i].lexeme[0]) || IsPunct(ts[i + 1].lexeme[0])
    {
      if i >= |a| {
        assert ts[i] == b[i - |a|] && ts[i + 1] == b[i + 1 - |a|] && gs[i] == gb[i - |a|];
      } else if i + 1 == |a| {
        assert ts[i + 1] == b[0];
      }
    }
  }

  /** `(a op b)` with single blanks around the operator is separated,
      whatever blanks follow it. */
  lemma GroupSeparated(a: Token, op: string, b: Token, close: string)
    requires IsAtom(a) && IsAtom(b) && IsArithOp(op) && AllBlanks(close)
    ensures AllReal([Token(LParen, "("), a, OpToken(op), b, Token(RParen, ")")])
    ensures Separated([Token(LParen, "("), a, OpToken(op), b, Token(RParen, ")")], ["", " ", " ", "", close])
  {
    var bin, g := [a, OpToken(op), b], [" ", " ", ""];
    BinaryLayout(a, op, b);
    OpenedLayout(bin, g);
    var r := [Token(RParen, ")")];
    assert AllReal(r) && Separated(r, [close]);
    SeparatedJoin([Token(LParen, "(")] + bin, [""] + g, r, [close]);
    assert [Token(LParen, "(")] + bin + r == [Token(LParen, "("), a, OpToken(op), b, Token(RParen, ")")];
    assert [""] + g + [close] == ["", " ", " ", "", close];
  }

  /** `(a op b)` laid out with single blanks around the operator and
      `close` after the closing parenthesis. */
  lemma GroupText(a: Token, op: string, b: Token, close: string)
    requires IsAtom(a) && IsAtom(b) && IsArithOp(op)
    ensures Layout([Token(LParen, "("), a, OpToken(op), b, Token(RParen, ")")], ["", " ", " ", "", close])
         == "(" + a.lexeme + " " + op + " " + b.lexeme + ")" + close
  {
    var bin, g := [a, OpToken(op), b], [" ", " ", ""];
    BinaryLayout(a, op, b);
    OpenedLayout(bin, g);
    assert [Token(RParen, ")")][1..] == [];
    assert Layout([Token(RParen, ")")], [close]) == ")" + close;
    PrefixAssoc("(", a.lexeme, op, b.lexeme);
    Joined([Token(LParen, "(")] + bin, [""] + g, [Token(RParen, ")")], [close],
      "(" + a.lexeme + " " + op + " " + b.lexeme, ")" + close, "(" + a.lexeme + " " + op + " " + b.lexeme + ")" + close);
    assert [Token(LParen, "(")] + bin + [Token(RParen, ")")] == [Token(LParen, "("), a, OpToken(op), b, Token(RParen, ")")];
    assert [""] + g + [close] == ["", " ", " ", "", close];
  }

  /** An operator node over two atoms prints as three tokens. */
  lemma BinaryPrints(a: Token, op: string, b: Token)
    requires IsAtom(a) && IsAtom(b) && IsArithOp(op)
    ensures WellFormed(BinOpNode(op, Atom(a), Atom(b)))
    ensures ExprTokens(BinOpNode(op, Atom(a), Atom(b))) == [a, OpToken(op), b]
  {
    AtomTokens(a);
    AtomTokens(b);
    if op == "+" || op == "-" {
      PrintsAdditive(op, Atom(a), Atom(b));
    } else {
      PrintsMultiplicative(op, Atom(a), Atom(b));
    }
  }

  /** The text `a op b` with single blanks. */
  lemma BinaryLayout(a: Token, op: string, b: Token)
    requires IsAtom(a) && IsAtom(b) && IsArithOp(op)
    ensures AllReal([a, OpToken(op), b]) && Separated([a, OpToken(op), b], [" ", " ", ""])
    ensures Layout([a, OpToken(op), b], [" ", " ", ""]) == a.lexeme + " " + op + " " + b.lexeme
  {
    var ts, g := [a, OpToken(op), b], [" ", " ", ""];
    assert ts[1..][1..][1..] == [];
    assert Layout(ts[1..][1..], g[1..][1..]) == b.lexeme;
  }

  /** Any text `a op b` over two atoms parses to the operator node. */
  lemma ReadsBinary(a: Token, op: string, b: Token)
    requires IsAtom(a) && IsAtom(b) && IsArithOp(op)
    ensures Lexer.InDomain(a.lexeme + " " + op + " " + b.lexeme)
    ensures ParseText(a.lexeme + " " + op + " " + b.lexeme) == Ok(BinOpNode(op, Atom(a), Atom(b)))
  {
    BinaryPrints(a, op, b);
    BinaryLayout(a, op, b);
    Reads(a.lexeme + " " + op + " " + b.lexeme, [a, OpToken(op), b], [" ", " ", ""], BinOpNode(op, Atom(a), Atom(b)));
  }

  /** Five tokens `a o1 b o2 c` laid out with single blanks. */
  lemma ChainLayout(a: Token, o1: string, b: Token, o2: string, c: Token)
    requires IsAtom(a) && IsAtom(b) && IsAtom(c) && IsArithOp(o1) && IsArithOp(o2)
    ensures AllReal([a, OpToken(o1), b, OpToken(o2), c])
    ensures Separated([a, OpToken(o1), b, OpToken(o2), c], [" ", " ", " ", " ", ""])
    ensures Layout([a, OpToken(o1), b, OpToken(o2), c], [" ", " ", " ", " ", ""])
         == a.lexeme + " " + o1 + " " + b.lexeme + " " + o2 + " " + c.lexeme
  {
    ChainSeparated(a, o1, b, o2, c);
    ChainText(a, o1, b, o2, c);
  }

  lemma ChainSeparated(a: Token, o1: string, b: Token, o2: string, c: Token)
    requires IsAtom(a) && IsAtom(b) && IsAtom(c) && IsArithOp(o1) && IsArithOp(o2)
    ensures AllReal([a, OpToken(o1), b, OpToken(o2), c])
    ensures Separated([a, OpToken(o1), b, OpToken(o2), c], [" ", " ", " ", " ", ""])
  {
    BinaryLayout(b, o2, c);
    assert [OpToken(o1)] + [b, OpToken(o2), c] == [OpToken(o1), b, OpToken(o2), c];
    assert [a] + [OpToken(o1), b, OpToken(o2), c] == [a, OpToken(o1), b, OpToken(o2), c];
    assert [" "] + [" ", " ", ""] == [" ", " ", " ", ""] && [" "] + [" ", " ", " ", ""] == [" ", " ", " ", " ", ""];
    SpacedOut(OpToken(o1), [b, OpToken(o2), c], [" ", " ", ""]);
    SpacedOut(a, [OpToken(o1), b, OpToken(o2), c], [" ", " ", " ", ""]);
  }

  /** A token followed by a blank may precede any separated layout. */
  lemma SpacedOut(t: Token, ts: seq<Token>, gaps: seq<string>)
    requires Fits(t) && !Terminal(t) && |gaps| == |ts| && AllReal(ts) && Separated(ts, gaps)
    ensures AllReal([t] + ts) && Separated([t] + ts, [" "] + gaps)
  {
    var us, hs := [t] + ts, [" "] + gaps;
    assert AllBlanks(" ");
    forall i | 0 <= i < |us|
      ensures Fits(us[i]) && !Terminal(us[i])
    {
      if i > 0 {
        assert us[i] == ts[i - 1];
      }
    }
    forall i | 0 <= i < |hs|
      ensures AllBlanks(hs[i])
    {
      if i > 0 {
        assert hs[i] == gaps[i - 1];
      }
    }
    forall i | 0 <= i < |us| - 1
      ensures |hs[i]| > 0 || IsPunct(us[i].lexeme[0]) || IsPunct(us[i + 1].lexeme[0])
    {
      if i > 0 {
        assert us[i] == ts[i - 1] && us[i + 1] == ts[i] && hs[i] == gaps[i - 1];
      }
    }
  }

  lemma ChainText(a: Token, o1: string, b: Token, o2: string, c: Token)
    requires IsAtom(a) && IsAtom(b) && IsAtom(c) && IsArithOp(o1) && IsArithOp(o2)
    ensures Layout([a, OpToken(o1), b, OpToken(o2), c], [" ", " ", " ", " ", ""])
         == a.lexeme + " " + o1 + " " + b.lexeme + " " + o2 + " " + c.lexeme
  {
    var bin, g := [b, OpToken(o2), c], [" ", " ", ""];
    BinaryLayout(b, o2, c);
    LayoutCons(OpToken(o1), bin, " ", g);
    LayoutCons(a, [OpToken(o1)] + bin, " ", [" "] + g);
    assert [a] + ([OpToken(o1)] + bin) == [a, OpToken(o1), b, OpToken(o2), c];
    assert [" "] + ([" "] + g) == [" ", " ", " ", " ", ""];
    ChainAssoc(a.lexeme, o1, b.lexeme, o2, c.lexeme);
  }

  /** Laying out a list is laying out its head, then its tail. */
  lemma LayoutCons(t: Token, ts: seq<Token>, g: string, gaps: seq<string>)
    requires |gaps| == |ts|
    ensures Layout([t] + ts, [g] + gaps) == t.lexeme + g + Layout(ts, gaps)
  {
    assert ([t] + ts)[1..] == ts && ([g] + gaps)[1..] == gaps;
  }

  lemma ChainAssoc(x: string, o1: string, y: string, o2: string, z: string)
    ensures x + " " + (o1 + " " + (y + " " + o2 + " " + z)) == x + " " + o1 + " " + y + " " + o2 + " " + z
  {
  }

  /** A text that starts with a layout of real tokens scans to those
      tokens, then to whatever the rest of the text scans to. */
  lemma ReadsThen(text: string, ts: seq<Token>, gaps: seq<string>, rest: string)
    requires |gaps| == |ts| && AllReal(ts) && Separated(ts, gaps)
    requires Lexer.InDomain(rest) && Continues(ts, gaps, rest)
    requires Layout(ts, gaps) + rest == text
    ensures Lexer.InDomain(text) && Lexer.Scan(text) == ts + Lexer.Scan(rest)
  {
    ScanLayoutThen(ts, gaps, rest);
  }

  /** Lexing and parsing a text whose scan is known. */
  lemma Scanned(text: string, ts: seq<Token>)
    requires Lexer.InDomain(text) && Lexer.Scan(text) == ts
    ensures Framed(ts)
    ensures ParseText(text) == Parse(ts)
    ensures Lexer.Tokenize(text)
         == if ts[|ts| - 1].kind == Mismatch then Err(LexError(ts[|ts| - 1].lexeme)) else Ok(ts)
  {
  }

  /** A text that opens with `&` scans to the lexical-error marker alone,
      whatever follows it. */
  lemma AmpersandFirst()
    ensures Lexer.InDomain("&") && Lexer.Scan("&") == [Token(Mismatch, "&")]
    ensures Lexer.InDomain("& 1") && Lexer.Scan("& 1") == [Token(Mismatch, "&")]
    ensures Lexer.InDomain("& 2") && Lexer.Scan("& 2") == [Token(Mismatch, "&")]
  {
    assert "&"[..1] == "& 1"[..1] == "& 2"[..1] == "&";
    LexerFacts.ScanMismatch("&");
    LexerFacts.ScanMismatch("& 1");
    LexerFacts.ScanMismatch("& 2");
  }

  /** An atom followed by a token that no rule continues with leaves that
      token as trailing input. */
  lemma TrailingAtom(a: Token, rest: seq<Token>)
    requires IsAtom(a) && Pending(rest) && rest[0].kind != Eof
    requires !IsAddOp(rest[0].kind) && !IsMulOp(rest[0].kind)
    ensures Framed([a] + rest)
    ensures Parse([a] + rest) == Err(TrailingInput(rest[0]))
  {
    AtomTokens(a);
    ExprReads(Atom(a), rest);
  }

  /** An atom and an additive operator with EOF after it: the right-hand
      `term` finds no factor. */
  lemma DanglingOperator(a: Token, op: string)
    requires IsAtom(a) && (op == "+" || op == "-")
    ensures Framed([a, OpToken(op), Token(Eof, "")])
    ensures Parse([a, OpToken(op), Token(Eof, "")]) == Err(UnexpectedFactor(Token(Eof, "")))
  {
    var eof := [Token(Eof, "")];
    var rest := [OpToken(op)] + eof;
    Prefixed(OpToken(op), eof);
    AtomTokens(a);
    TermRoundTrip(Atom(a), rest);
    assert Term(eof) == Err(UnexpectedFactor(Token(Eof, "")));
    assert ExprLoop(Atom(a), rest) == Err(UnexpectedFactor(Token(Eof, "")));
    assert [a] + rest == [a, OpToken(op), Token(Eof, "")];
  }

  /** The text `(a op b` scans to its five tokens. */
  lemma ScansOpenBinary(a: Token, op: string, b: Token)
    requires IsAtom(a) && IsAtom(b) && IsArithOp(op)
    ensures Lexer.InDomain("(" + a.lexeme + " " + op + " " + b.lexeme)
    ensures Lexer.Scan("(" + a.lexeme + " " + op + " " + b.lexeme)
         == [Token(LParen, "("), a, OpToken(op), b, Token(Eof, "")]
  {
    var bin, g := [a, OpToken(op), b], [" ", " ", ""];
    BinaryLayout(a, op, b);
    OpenedLayout(bin, g);
    PrefixAssoc("(", a.lexeme, op, b.lexeme);
    ScanLayout([Token(LParen, "(")] + bin, [""] + g);
    OpenList(a, OpToken(op), b);
  }

  lemma PrefixAssoc(p: string, x: string, op: string, z: string)
    ensures p + (x + " " + op + " " + z) == p + x + " " + op + " " + z
  {
  }

  /** An opening parenthesis before a laid-out list needs no blank. */
  lemma OpenedLayout(ts: seq<Token>, gaps: seq<string>)
    requires |gaps| == |ts| && AllReal(ts) && Separated(ts, gaps)
    ensures |[""] + gaps| == |[Token(LParen, "(")] + ts|
    ensures AllReal([Token(LParen, "(")] + ts) && Separated([Token(LParen, "(")] + ts, [""] + gaps)
    ensures Layout([Token(LParen, "(")] + ts, [""] + gaps) == "(" + Layout(ts, gaps)
  {
    var os, gs := [Token(LParen, "(")] + ts, [""] + gaps;
    assert os[1..] == ts && gs[1..] == gaps;
    assert AllBlanks("");
    assert IsPunct('(');
  }

  /** `(a op b` followed by EOF lacks its `)`. */
  lemma OpenBinary(a: Token, op: string, b: Token)
    requires IsAtom(a) && IsAtom(b) && IsArithOp(op)
    ensures Framed([Token(LParen, "("), a, OpToken(op), b, Token(Eof, "")])
    ensures Parse([Token(LParen, "("), a, OpToken(op), b, Token(Eof, "")]) == Err(Expected(RParen, Token(Eof, "")))
  {
    BinaryPrints(a, op, b);
    UnclosedParenthesis(BinOpNode(op, Atom(a), Atom(b)), [Token(Eof, "")]);
    OpenList(a, OpToken(op), b);
  }

  lemma OpenList(a: Token, o: Token, b: Token)
    ensures [Token(LParen, "(")] + [a, o, b] + [Token(Eof, "")] == [Token(LParen, "("), a, o, b, Token(Eof, "")]
  {
  }

  // Steps for `3 + 5 * 2`

  lemma SumLayout()
    ensures AllReal(SumTokens())
    ensures Separated(SumTokens(), [" ", " ", " ", " ", ""])
    ensures Layout(SumTokens(), [" ", " ", " ", " ", ""]) == "3 + 5 * 2"
  {
    assert IsNumberLexeme("3") && IsNumberLexeme("5") && IsNumberLexeme("2");
    ChainLayout(Token(Number, "3"), "+", Token(Number, "5"), "*", Token(Number, "2"));
    SumText();
  }

  lemma SumText()
    ensures "3" + " " + "+" + " " + "5" + " " + "*" + " " + "2" == "3 + 5 * 2"
  {
  }

  /** The shape of `a + b * c`. */
  lemma SumShape(a: Token, b: Token, c: Token)
    requires IsAtom(a) && IsAtom(b) && IsAtom(c)
    ensures WellFormed(BinOpNode("+", Atom(a), BinOpNode("*", Atom(b), Atom(c))))
    ensures ExprTokens(BinOpNode("+", Atom(a), BinOpNode("*", Atom(b), Atom(c))))
         == [a, Token(Plus, "+"), b, Token(Mul, "*"), c]
  {
    AtomTokens(a);
    AtomTokens(b);
    AtomTokens(c);
    PrintsMultiplicative("*", Atom(b), Atom(c));
    PrintsAdditive("+", Atom(a), BinOpNode("*", Atom(b), Atom(c)));
    ChainConcat(a, Token(Plus, "+"), b, Token(Mul, "*"), c);
  }

  lemma ChainConcat(a: Token, o1: Token, b: Token, o2: Token, c: Token)
    ensures [a] + [o1] + ([b] + [o2] + [c]) == [a, o1, b, o2, c]
    ensures [a] + [o1] + [b] + [o2] + [c] == [a, o1, b, o2, c]
  {
  }

  lemma SumPrints()
    ensures WellFormed(SumTree()) && ExprTokens(SumTree()) == SumTokens()
  {
    assert IsNumberLexeme("3") && IsNumberLexeme("5") && IsNumberLexeme("2");
    SumShape(Token(Number, "3"), Token(Number, "5"), Token(Number, "2"));
  }

  // Steps for `(3 + 5) * 2 - 4 / 2`

  /** The shape of `(a + b) * c - d / e`. */
  function MixedOf(a: Token, b: Token, c: Token, d: Token, e: Token): Node
    requires IsAtom(a) && IsAtom(b) && IsAtom(c) && IsAtom(d) && IsAtom(e)
  {
    BinOpNode("-",
      BinOpNode("*", BinOpNode("+", Atom(a), Atom(b)), Atom(c)),
      BinOpNode("/", Atom(d), Atom(e)))
  }

  lemma MixedShape(a: Token, b: Token, c: Token, d: Token, e: Token)
    requires IsAtom(a) && IsAtom(b) && IsAtom(c) && IsAtom(d) && IsAtom(e)
    ensures WellFormed(MixedOf(a, b, c, d, e))
    ensures ExprTokens(MixedOf(a, b, c, d, e))
         == [Token(LParen, "("), a, Token(Plus, "+"), b, Token(RParen, ")")]
          + [Token(Mul, "*"), c, Token(Minus, "-"), d, Token(Div, "/"), e]
  {
    AtomTokens(a);
    AtomTokens(b);
    AtomTokens(c);
    AtomTokens(d);
    AtomTokens(e);
    var sum := BinOpNode("+", Atom(a), Atom(b));
    var product := BinOpNode("*", sum, Atom(c));
    var quotient := BinOpNode("/", Atom(d), Atom(e));
    PrintsAdditive("+", Atom(a), Atom(b));
    PrintsMultiplicative("*", sum, Atom(c));
    PrintsMultiplicative("/", Atom(d), Atom(e));
    PrintsAdditive("-", product, quotient);
    MixedConcat(a, b, c, d, e);
  }

  lemma MixedConcat(a: Token, b: Token, c: Token, d: Token, e: Token)
    ensures [Token(LParen, "(")] + ([a] + [Token(Plus, "+")] + [b]) + [Token(RParen, ")")]
          + [Token(Mul, "*")] + [c] + [Token(Minus, "-")] + ([d] + [Token(Div, "/")] + [e])
         == [Token(LParen, "("), a, Token(Plus, "+"), b, Token(RParen, ")")]
          + [Token(Mul, "*"), c, Token(Minus, "-"), d, Token(Div, "/"), e]
  {
  }

  function MixedGroup(): seq<Token> {
    [Token(LParen, "("), Token(Number, "3"), Token(Plus, "+"), Token(Number, "5"), Token(RParen, ")")]
  }

  function MixedRest(): seq<Token> {
    [Token(Mul, "*"), Token(Number, "2"), Token(Minus, "-"), Token(Number, "4"), Token(Div, "/"), Token(Number, "2")]
  }

  function MixedGroupGaps(): seq<string> {
    ["", " ", " ", "", " "]
  }

  function MixedRestGaps(): seq<string> {
    [" ", " ", " ", " ", " ", ""]
  }

  function MixedGaps(): seq<string> {
    MixedGroupGaps() + MixedRestGaps()
  }

  lemma MixedLayout()
    ensures AllReal(MixedTokens())
    ensures |MixedGaps()| == |MixedTokens()| && Separated(MixedTokens(), MixedGaps())
    ensures Layout(MixedTokens(), MixedGaps()) == "(3 + 5) * 2 - 4 / 2"
  {
    MixedSeparated();
    MixedText();
  }

  lemma MixedSeparated()
    ensures AllReal(MixedTokens()) && |MixedGaps()| == |MixedTokens()| && Separated(MixedTokens(), MixedGaps())
  {
    MixedGroupSeparated();
    MixedRestSeparated();
    assert MixedGroup()[4].lexeme == ")";
    SeparatedJoin(MixedGroup(), MixedGroupGaps(), MixedRest(), MixedRestGaps());
  }

  lemma MixedGroupSeparated()
    ensures AllReal(MixedGroup()) && Separated(MixedGroup(), MixedGroupGaps())
  {
    assert IsNumberLexeme("3") && IsNumberLexeme("5");
    GroupSeparated(Token(Number, "3"), "+", Token(Number, "5"), " ");
  }

  lemma MixedRestSeparated()
    ensures AllReal(MixedRest()) && Separated(MixedRest(), MixedRestGaps())
  {
    assert IsNumberLexeme("2") && IsNumberLexeme("4");
    var chain := [Token(Number, "2"), OpToken("-"), Token(Number, "4"), OpToken("/"), Token(Number, "2")];
    ChainSeparated(Token(Number, "2"), "-", Token(Number, "4"), "/", Token(Number, "2"));
    SpacedOut(Token(Mul, "*"), chain, [" ", " ", " ", " ", ""]);
    assert [Token(Mul, "*")] + chain == MixedRest();
    assert [" "] + [" ", " ", " ", " ", ""] == MixedRestGaps();
  }

  lemma MixedGroupText()
    ensures Layout(MixedGroup(), MixedGroupGaps()) == "(3 + 5) "
  {
    assert IsNumberLexeme("3") && IsNumberLexeme("5");
    GroupText(Token(Number, "3"), "+", Token(Number, "5"), " ");
    assert "(" + "3" + " " + "+" + " " + "5" + ")" + " " == "(3 + 5) ";
  }

  lemma MixedRestText()
    ensures Layout(MixedRest(), MixedRestGaps()) == "* 2 - 4 / 2"
  {
    assert IsNumberLexeme("2") && IsNumberLexeme("4");
    var chain := [Token(Number, "2"), OpToken("-"), Token(Number, "4"), OpToken("/"), Token(Number, "2")];
    ChainText(Token(Number, "2"), "-", Token(Number, "4"), "/", Token(Number, "2"));
    assert MixedRest()[1..] == chain && MixedRestGaps()[1..] == [" ", " ", " ", " ", ""];
    MixedRestConcat();
  }

  lemma MixedRestConcat()
    ensures "*" + " " + ("2" + " " + "-" + " " + "4" + " " + "/" + " " + "2") == "* 2 - 4 / 2"
  {
  }

  lemma MixedHalves()
    ensures "(3 + 5) " + "* 2 - 4 / 2" == "(3 + 5) * 2 - 4 / 2"
  {
  }

  lemma MixedText()
    ensures |MixedGaps()| == |MixedTokens()| && Layout(MixedTokens(), MixedGaps()) == "(3 + 5) * 2 - 4 / 2"
  {
    MixedGroupText();
    MixedRestText();
    MixedHalves();
    Joined(MixedGroup(), MixedGroupGaps(), MixedRest(), MixedRestGaps(), "(3 + 5) ", "* 2 - 4 / 2", "(3 + 5) * 2 - 4 / 2");
  }

  lemma MixedPrints()
    ensures WellFormed(MixedTree()) && ExprTokens(MixedTree()) == MixedTokens()
  {
    MixedShape(Token(Number, "3"), Token(Number, "5"), Token(Number, "2"), Token(Number, "4"), Token(Number, "2"));
  }

  lemma MixedTreeIs()
    ensures MixedTree()
         == BinOpNode("-", BinOpNode("*", BinOpNode("+", Num("3"), Num("5")), Num("2")), BinOpNode("/", Num("4"), Num("2")))
  {
  }

  // Steps for `3 + x * (2 + y)`

  function NestedGaps(): seq<string> {
    [" ", " ", " ", " "] + ["", " ", " ", "", ""]
  }

  lemma NestedLayout()
    ensures AllReal(NestedTokens())
    ensures |NestedGaps()| == |NestedTokens()| && Separated(NestedTokens(), NestedGaps())
    ensures Layout(NestedTokens(), NestedGaps()) == "3 + x * (2 + y)"
  {
    NestedSeparated();
    NestedText();
  }

  lemma NestedSeparated()
    ensures AllReal(NestedTokens()) && |NestedGaps()| == |NestedTokens()| && Separated(NestedTokens(), NestedGaps())
  {
    var g := ["", " ", " ", "", ""];
    NestedGroupSeparated();
    SpacedOut(Token(Mul, "*"), NestedGroup(), g);
    SpacedOut(Token(Ident, "x"), [Token(Mul, "*")] + NestedGroup(), [" "] + g);
    SpacedOut(Token(Plus, "+"), [Token(Ident, "x")] + ([Token(Mul, "*")] + NestedGroup()), [" "] + ([" "] + g));
    assert IsNumberLexeme("3");
    SpacedOut(Token(Number, "3"), [Token(Plus, "+")] + ([Token(Ident, "x")] + ([Token(Mul, "*")] + NestedGroup())),
      [" "] + ([" "] + ([" "] + g)));
    NestedAssembled(g);
  }

  lemma NestedGroupSeparated()
    ensures AllReal(NestedGroup()) && Separated(NestedGroup(), ["", " ", " ", "", ""])
  {
    assert IsNumberLexeme("2");
    GroupSeparated(Token(Number, "2"), "+", Token(Ident, "y"), "");
  }

  lemma NestedAssembled(g: seq<string>)
    requires g == ["", " ", " ", "", ""]
    ensures [Token(Number, "3")] + ([Token(Plus, "+")] + ([Token(Ident, "x")] + ([Token(Mul, "*")] + NestedGroup())))
         == NestedTokens()
    ensures [" "] + ([" "] + ([" "] + ([" "] + g))) == NestedGaps()
  {
  }

  function NestedHead(): seq<Token> {
    [Token(Number, "3"), Token(Plus, "+"), Token(Ident, "x"), Token(Mul, "*")]
  }

  function NestedGroup(): seq<Token> {
    [Token(LParen, "("), Token(Number, "2"), Token(Plus, "+"), Token(Ident, "y"), Token(RParen, ")")]
  }

  lemma NestedHeadText()
    ensures Layout(NestedHead(), [" ", " ", " ", " "]) == "3 + x * "
  {
  }

  lemma NestedGroupText()
    ensures Layout(NestedGroup(), ["", " ", " ", "", ""]) == "(2 + y)"
  {
    assert IsNumberLexeme("2");
    GroupText(Token(Number, "2"), "+", Token(Ident, "y"), "");
    assert "(" + "2" + " " + "+" + " " + "y" + ")" + "" == "(2 + y)";
  }

  lemma NestedHalves()
    ensures "3 + x * " + "(2 + y)" == "3 + x * (2 + y)"
  {
  }

  lemma NestedText()
    ensures |NestedGaps()| == |NestedTokens()| && Layout(NestedTokens(), NestedGaps()) == "3 + x * (2 + y)"
  {
    NestedHeadText();
    NestedGroupText();
    NestedHalves();
    Joined(NestedHead(), [" ", " ", " ", " "], NestedGroup(), ["", " ", " ", "", ""], "3 + x * ", "(2 + y)", "3 + x * (2 + y)");
  }

  /** The shape of `a + b * (c + d)`. */
  lemma NestedShape(a: Token, b: Token, c: Token, d: Token)
    requires IsAtom(a) && IsAtom(b) && IsAtom(c) && IsAtom(d)
    ensures WellFormed(BinOpNode("+", Atom(a), BinOpNode("*", Atom(b), BinOpNode("+", Atom(c), Atom(d)))))
    ensures ExprTokens(BinOpNode("+", Atom(a), BinOpNode("*", Atom(b), BinOpNode("+", Atom(c), Atom(d)))))
         == [a, Token(Plus, "+"), b, Token(Mul, "*")]
          + [Token(LParen, "("), c, Token(Plus, "+"), d, Token(RParen, ")")]
  {
    AtomTokens(a);
    AtomTokens(b);
    AtomTokens(c);
    AtomTokens(d);
    var inner := BinOpNode("+", Atom(c), Atom(d));
    PrintsAdditive("+", Atom(c), Atom(d));
    PrintsMultiplicative("*", Atom(b), inner);
    PrintsAdditive("+", Atom(a), BinOpNode("*", Atom(b), inner));
    NestedConcat(a, b, c, d);
  }

  lemma NestedConcat(a: Token, b: Token, c: Token, d: Token)
    ensures [a] + [Token(Plus, "+")] + ([b] + [Token(Mul, "*")] + ([Token(LParen, "(")] + ([c] + [Token(Plus, "+")] + [d]) + [Token(RParen, ")")]))
         == [a, Token(Plus, "+"), b, Token(Mul, "*")]
          + [Token(LParen, "("), c, Token(Plus, "+"), d, Token(RParen, ")")]
  {
  }

  lemma NestedPrints()
    ensures WellFormed(NestedTree()) && ExprTokens(NestedTree()) == NestedTokens()
  {
    assert IsNumberLexeme("3") && IsNumberLexeme("2");
    NestedShape(Token(Number, "3"), Token(Ident, "x"), Token(Number, "2"), Token(Ident, "y"));
  }

  // Steps for `a / b + 10`

  lemma QuotientLayout()
    ensures AllReal(QuotientTokens())
    ensures Separated(QuotientTokens(), [" ", " ", " ", " ", ""])
    ensures Layout(QuotientTokens(), [" ", " ", " ", " ", ""]) == "a / b + 10"
  {
    assert IsNumberLexeme("10");
    ChainLayout(Token(Ident, "a"), "/", Token(Ident, "b"), "+", Token(Number, "10"));
    QuotientText();
  }

  lemma QuotientText()
    ensures "a" + " " + "/" + " " + "b" + " " + "+" + " " + "10" == "a / b + 10"
  {
  }

  /** The shape of `a / b + c`. */
  lemma QuotientShape(a: Token, b: Token, c: Token)
    requires IsAtom(a) && IsAtom(b) && IsAtom(c)
    ensures WellFormed(BinOpNode("+", BinOpNode("/", Atom(a), Atom(b)), Atom(c)))
    ensures ExprTokens(BinOpNode("+", BinOpNode("/", Atom(a), Atom(b)), Atom(c)))
         == [a, Token(Div, "/"), b, Token(Plus, "+"), c]
  {
    AtomTokens(a);
    AtomTokens(b);
    AtomTokens(c);
    PrintsMultiplicative("/", Atom(a), Atom(b));
    PrintsAdditive("+", BinOpNode("/", Atom(a), Atom(b)), Atom(c));
    ChainConcat(a, Token(Div, "/"), b, Token(Plus, "+"), c);
  }

  lemma QuotientPrints()
    ensures WellFormed(QuotientTree()) && ExprTokens(QuotientTree()) == QuotientTokens()
  {
    assert IsNumberLexeme("10");
    QuotientShape(Token(Ident, "a"), Token(Ident, "b"), Token(Number, "10"));
  }

  // Steps for `z + 1`

  lemma UnboundText()
    ensures "z" + " " + "+" + " " + "1" == "z + 1"
    ensures UnboundTree() == BinOpNode("+", Atom(Token(Ident, "z")), Atom(Token(Number, "1")))
  {
  }

  // Steps for `1 / 0`

  lemma ZeroDivisorParses()
    ensures Lexer.InDomain("1 / 0")
    ensures ParseText("1 / 0") == Ok(ZeroDivisorTree())
  {
    assert IsNumberLexeme("1") && IsNumberLexeme("0");
    ReadsBinary(Token(Number, "1"), "/", Token(Number, "0"));
    ZeroDivisorText();
  }

  lemma ZeroDivisorText()
    ensures "1" + " " + "/" + " " + "0" == "1 / 0"
    ensures ZeroDivisorTree() == BinOpNode("/", Atom(Token(Number, "1")), Atom(Token(Number, "0")))
  {
  }

  // Steps for `2.5 * 2`

  lemma DecimalParses()
    ensures Lexer.InDomain("2.5 * 2")
    ensures ParseText("2.5 * 2") == Ok(DecimalTree())
  {
    DecimalLexeme();
    ReadsBinary(Token(Number, "2.5"), "*", Token(Number, "2"));
    DecimalText();
  }

  lemma DecimalLexeme()
    ensures IsNumberLexeme("2.5") && IsNumberLexeme("2")
  {
    assert "2.5"[..1] == "2" && "2.5"[2..] == "5";
  }

  lemma DecimalText()
    ensures IsNumberLexeme("2.5") && IsNumberLexeme("2")
    ensures "2.5" + " " + "*" + " " + "2" == "2.5 * 2"
    ensures DecimalTree() == BinOpNode("*", Atom(Token(Number, "2.5")), Atom(Token(Number, "2")))
  {
    DecimalLexeme();
  }

  // Steps for `3 & 2`

  lemma AmpersandHead()
    ensures Lexer.InDomain("3 & 2") && Lexer.Scan("3 & 2") == [Token(Number, "3")] + Lexer.Scan("& 2")
  {
    assert IsNumberLexeme("3");
    ReadsThen("3 & 2", [Token(Number, "3")], [" "], "& 2");
  }

  lemma AmpersandScan()
    ensures Lexer.InDomain("3 & 2") && Lexer.Scan("3 & 2") == [Token(Number, "3"), Token(Mismatch, "&")]
  {
    AmpersandHead();
    AmpersandFirst();
    assert [Token(Number, "3")] + [Token(Mismatch, "&")] == [Token(Number, "3"), Token(Mismatch, "&")];
  }

  lemma AmpersandParse()
    ensures Parse([Token(Number, "3"), Token(Mismatch, "&")]) == Err(LexError("&"))
  {
    assert IsNumberLexeme("3");
  }

  // Steps for `3 3 &`

  lemma TrailingAmpersandHead()
    ensures Lexer.InDomain("3 3 &")
    ensures Lexer.Scan("3 3 &") == [Token(Number, "3"), Token(Number, "3")] + Lexer.Scan("&")
  {
    assert IsNumberLexeme("3");
    ReadsThen("3 3 &", [Token(Number, "3"), Token(Number, "3")], [" ", " "], "&");
  }

  lemma TrailingAmpersandScan()
    ensures Lexer.InDomain("3 3 &")
    ensures Lexer.Scan("3 3 &") == [Token(Number, "3"), Token(Number, "3"), Token(Mismatch, "&")]
  {
    TrailingAmpersandHead();
    AmpersandFirst();
    assert [Token(Number, "3"), Token(Number, "3")] + [Token(Mismatch, "&")]
        == [Token(Number, "3"), Token(Number, "3"), Token(Mismatch, "&")];
  }

  lemma TrailingAmpersandParse()
    ensures Parse([Token(Number, "3"), Token(Number, "3"), Token(Mismatch, "&")])
         == Err(TrailingInput(Token(Number, "3")))
  {
    var rest := [Token(Number, "3"), Token(Mismatch, "&")];
    assert IsNumberLexeme("3") && Fits(Token(Mismatch, "&"));
    assert Pending(rest);
    TrailingAtom(Token(Number, "3"), rest);
    assert [Token(Number, "3")] + rest == [Token(Number, "3"), Token(Number, "3"), Token(Mismatch, "&")];
  }

  // Steps for `3 +`

  lemma MissingOperandScans()
    ensures Lexer.InDomain("3 +")
    ensures Lexer.Scan("3 +") == [Token(Number, "3"), Token(Plus, "+"), Token(Eof, "")]
  {
    assert IsNumberLexeme("3");
    ReadsThen("3 +", [Token(Number, "3"), Token(Plus, "+")], [" ", ""], "");
  }

  lemma MissingOperandParse()
    ensures Parse([Token(Number, "3"), Token(Plus, "+"), Token(Eof, "")]) == Err(UnexpectedFactor(Token(Eof, "")))
  {
    assert IsNumberLexeme("3");
    DanglingOperator(Token(Number, "3"), "+");
  }

  // Steps for `(3 + 5`

  lemma MissingParenthesisScans()
    ensures Lexer.InDomain("(3 + 5")
    ensures Lexer.Scan("(3 + 5") == [Token(LParen, "("), Token(Number, "3"), Token(Plus, "+"), Token(Number, "5"), Token(Eof, "")]
  {
    assert IsNumberLexeme("3") && IsNumberLexeme("5");
    ScansOpenBinary(Token(Number, "3"), "+", Token(Number, "5"));
    assert "(" + "3" + " " + "+" + " " + "5" == "(3 + 5";
  }

  lemma MissingParenthesisParse()
    ensures Parse([Token(LParen, "("), Token(Number, "3"), Token(Plus, "+"), Token(Number, "5"), Token(Eof, "")])
         == Err(Expected(RParen, Token(Eof, "")))
  {
    assert IsNumberLexeme("3") && IsNumberLexeme("5");
    OpenBinary(Token(Number, "3"), "+", Token(Number, "5"));
  }
}

=== FILE: lexer.dfy ===
/** The lexer (parser_edts.py:5-16, 28-50): a hand-written scanner with the
    behaviour of `re.finditer` over the alternation of the token patterns,
    tried in order NUMBER, ID, PLUS .. RPAREN, SKIP, MISMATCH. */
module Lexer {
  import opened Wrappers
  import opened Literals
  import opened Tokens
  import opened Errors

  /** The inputs the model covers: ASCII, so that `\d` and `\w` mean their
      ASCII classes, and no newline, which `.` (the MISMATCH pattern) would
      not match. */
  predicate InDomain(s: string) {
    forall i :: 0 <= i < |s| ==> s[i] != '\n' && s[i] as int < 128
  }

  /** Length of the longest prefix of `s` whose characters all satisfy `p`. */
  function Span(s: string, p: char -> bool): (n: nat)
    ensures n <= |s|
    ensures forall i :: 0 <= i < n ==> p(s[i])
    ensures n == |s| || !p(s[n])
  {
    if |s| == 0 || !p(s[0]) then 0 else 1 + Span(s[1..], p)
  }

  /** Length of the match of `\d+(\.\d+)?` at the start of `s`: the digit
      run, extended by a '.' and a second digit run only when at least one
      digit follows the '.'. */
  function NumberLength(s: string): (n: nat)
    requires |s| > 0 && IsDigit(s[0])
    ensures 0 < n <= |s|
    ensures IsNumberLexeme(s[..n])
  {
    var d := Span(s, IsDigit);
    assert AllDigits(s[..d]);
    if d + 1 < |s| && s[d] == '.' && IsDigit(s[d + 1]) then
      var e := Span(s[d + 1..], IsDigit);
      var n := d + 1 + e;
      assert s[..n][..d] == s[..d];
      assert s[..n][d + 1..] == s[d + 1..][..e];
      n
    else
      d
  }

  /** Length of the match of `[a-zA-Z_]\w*` at the start of `s`. */
  function IdentLength(s: string): (n: nat)
    requires |s| > 0 && IsIdentStart(s[0])
    ensures 0 < n <= |s|
    ensures IsIdentifier(s[..n])
    ensures n == |s| || !IsWordChar(s[n])
  {
    1 + Span(s[1..], IsWordChar)
  }

  function PunctKind(c: char): Kind
    requires IsPunct(c)
  {
    match c
    case '+' => Plus
    case '-' => Minus
    case '*' => Mul
    case '/' => Div
    case '(' => LParen
    case ')' => RParen
  }

  /** Characters at which NUMBER, ID or one of the single-character
      patterns matches. */
  predicate StartsToken(c: char) {
    IsDigit(c) || IsIdentStart(c) || IsPunct(c)
  }

  /** The token matched at the start of `s`, the first of NUMBER, ID, PLUS,
      MINUS, MUL, DIV, LPAREN and RPAREN that applies. */
  function TokenAt(s: string): (t: Token)
    requires |s| > 0 && StartsToken(s[0])
    ensures Fits(t) && !Terminal(t)
    ensures 0 < |t.lexeme| <= |s| && t.lexeme == s[..|t.lexeme|]
  {
    if IsDigit(s[0]) then Token(Number, s[..NumberLength(s)])
    else if IsIdentStart(s[0]) then Token(Ident, s[..IdentLength(s)])
    else Token(PunctKind(s[0]), s[..1])
  }

  /** The whole token stream of `s` as the generator `_tokenize` would yield
      it: blank runs are dropped, and the stream ends with the EOF token, or
      with a `Mismatch` marker at the first character no real pattern
      matches, after which the generator yields nothing more. */
  function Scan(s: string): (ts: seq<Token>)
    requires InDomain(s)
    ensures Framed(ts)
    ensures ts[|ts| - 1].kind == Mismatch ==> ts[|ts| - 1].lexeme[0] in s
    decreases |s|
  {
    if |s| == 0 then
      [Token(Eof, "")]
    else if StartsToken(s[0]) then
      var t := TokenAt(s);
      var rest := Scan(s[|t.lexeme|..]);
      ConsFramed(t, rest, s, |t.lexeme|);
      [t] + rest
    else if IsBlank(s[0]) then
      var n := Span(s, IsBlank);
      var ts := Scan(s[n..]);
      MarkerInSuffix(ts, s, n);
      ts
    else
      [Token(Mismatch, s[..1])]
  }

  /** One scanning step keeps the stream framed: `t` matched the first `n`
      characters of `s` and `rest` is the stream of what follows. */
  lemma ConsFramed(t: Token, rest: seq<Token>, s: string, n: nat)
    requires 0 < n <= |s| && !Terminal(t) && Fits(t) && Framed(rest)
    requires rest[|rest| - 1].kind == Mismatch ==> rest[|rest| - 1].lexeme[0] in s[n..]
    ensures Framed([t] + rest)
    ensures rest[|rest| - 1].kind == Mismatch ==> rest[|rest| - 1].lexeme[0] in s
  {
    var ts := [t] + rest;
    assert forall i :: 1 <= i < |ts| ==> ts[i] == rest[i - 1];
    if rest[|rest| - 1].kind == Mismatch {
      InSuffix(rest[|rest| - 1].lexeme[0], s, n);
    }
  }

  lemma MarkerInSuffix(ts: seq<Token>, s: string, n: nat)
    requires n <= |s| && |ts| > 0
    requires ts[|ts| - 1].kind == Mismatch ==> |ts[|ts| - 1].lexeme| > 0 && ts[|ts| - 1].lexeme[0] in s[n..]
    ensures ts[|ts| - 1].kind == Mismatch ==> ts[|ts| - 1].lexeme[0] in s
  {
    if ts[|ts| - 1].kind == Mismatch {
      InSuffix(ts[|ts| - 1].lexeme[0], s, n);
    }
  }

  lemma InSuffix(c: char, s: string, n: nat)
    requires n <= |s| && c in s[n..]
    ensures c in s
  {
    var i :| 0 <= i < |s[n..]| && s[n..][i] == c;
    assert s[n + i] == c;
  }

  /** The stream consumed eagerly: the token list, or the LexError that
      consuming it to the end raises. */
  function Tokenize(s: string): (r: Result<seq<Token>, Error>)
    requires InDomain(s)
    ensures r.Ok? ==> |r.value| > 0 && r.value[|r.value| - 1] == Token(Eof, "")
    ensures r.Ok? ==> forall i :: 0 <= i < |r.value| - 1 ==> r.value[i].kind != Eof && r.value[i].lexeme != ""
    ensures r.Ok? ==> forall i :: 0 <= i < |r.value| ==> Fits(r.value[i])
    ensures r.Err? ==> r.error.LexError? && |r.error.text| == 1
    ensures r.Err? ==> r.error.text[0] in s && (r.error.text[0] == '.' || !IsAllowed(r.error.text[0]))
  {
    var ts := Scan(s);
    FramedTokens(ts);
    var last := ts[|ts| - 1];
    assert Fits(last);
    if last.kind == Mismatch then Err(LexError(last.lexeme)) else Ok(ts)
  }
}

/** Properties of the lexer: longest match, lexeme framing, rejection and
    the per-token steps that compose a scan. */
module LexerFacts {
  import opened Wrappers
  import opened Literals
  import opened Tokens
  import opened Errors
  import opened Lexer

  /** The NUMBER match is the longest prefix in the language of
      `\d+(\.\d+)?`, so "12.5x" yields "12.5" and "12." yields "12". */
  lemma NumberLengthIsLongest(s: string)
    requires |s| > 0 && IsDigit(s[0])
    ensures forall m :: NumberLength(s) < m <= |s| ==> !IsNumberLexeme(s[..m])
  {
    forall m | NumberLength(s) < m <= |s|
      ensures !IsNumberLexeme(s[..m])
    {
      NoLongerNumber(s, m);
    }
  }

  lemma NoLongerNumber(s: string, m: nat)
    requires |s| > 0 && IsDigit(s[0])
    requires NumberLength(s) < m <= |s|
    ensures !IsNumberLexeme(s[..m])
  {
    var n := NumberLength(s);
    var d := Span(s, IsDigit);
    var w := s[..m];
    assert !IsDigit(w[d]);
    forall k | 0 < k < |w| - 1 && w[k] == '.' && AllDigits(w[..k])
      ensures !AllDigits(w[k + 1..])
    {
      assert k == d;
      var e := Span(s[d + 1..], IsDigit);
      assert w[k + 1..][e] == s[d + 1..][e];
    }
  }

  /** The input with every space and tab removed. */
  function StripBlanks(s: string): string
    decreases |s|
  {
    if |s| == 0 then "" else (if IsBlank(s[0]) then "" else [s[0]]) + StripBlanks(s[1..])
  }

  /** The lexemes of a token list, concatenated. */
  function Lexemes(ts: seq<Token>): string
    decreases |ts|
  {
    if |ts| == 0 then "" else ts[0].lexeme + Lexemes(ts[1..])
  }

  lemma {:induction false} StripBlanksAppend(a: string, b: string)
    ensures StripBlanks(a + b) == StripBlanks(a) + StripBlanks(b)
    decreases |a|
  {
    if |a| > 0 {
      assert (a + b)[1..] == a[1..] + b;
      StripBlanksAppend(a[1..], b);
    } else {
      assert a + b == b;
    }
  }

  lemma {:induction false} StripBlanksOfBlankFree(w: string)
    requires forall j :: 0 <= j < |w| ==> !IsBlank(w[j])
    ensures StripBlanks(w) == w
    decreases |w|
  {
    if |w| > 0 {
      StripBlanksOfBlankFree(w[1..]);
      assert w == [w[0]] + w[1..];
    }
  }

  lemma {:induction false} StripBlanksOfBlanks(w: string)
    requires forall j :: 0 <= j < |w| ==> IsBlank(w[j])
    ensures StripBlanks(w) == ""
    decreases |w|
  {
    if |w| > 0 {
      StripBlanksOfBlanks(w[1..]);
    }
  }

  /** Every character of a real token's lexeme is one some pattern accepts,
      and none is a blank. */
  lemma LexemeChars(t: Token)
    requires Fits(t) && !Terminal(t)
    ensures forall j :: 0 <= j < |t.lexeme| ==> IsAllowed(t.lexeme[j]) && !IsBlank(t.lexeme[j])
  {
    var w := t.lexeme;
    if t.kind == Number && !AllDigits(w) {
      var k :| 0 < k < |w| - 1 && w[k] == '.' && AllDigits(w[..k]) && AllDigits(w[k + 1..]);
      forall j | 0 <= j < |w|
        ensures IsAllowed(w[j]) && !IsBlank(w[j])
      {
        if j < k {
          assert w[..k][j] == w[j];
        } else if j > k {
          assert w[k + 1..][j - k - 1] == w[j];
        }
      }
    }
  }

  lemma LastOfCons(t: Token, rest: seq<Token>)
    requires |rest| > 0
    ensures ([t] + rest)[|rest|] == rest[|rest| - 1]
    ensures ([t] + rest)[1..] == rest
  {
  }

  /** On success the lexemes, read in order, spell the input with its
      spaces and tabs removed: nothing is lost, reordered or invented. */
  lemma {:induction false} ScanLexemes(s: string)
    requires InDomain(s)
    requires Scan(s)[|Scan(s)| - 1].kind == Eof
    ensures Lexemes(Scan(s)) == StripBlanks(s)
    decreases |s|
  {
    if |s| == 0 {
    } else if StartsToken(s[0]) {
      var t := TokenAt(s);
      var n := |t.lexeme|;
      var rest := Scan(s[n..]);
      assert Scan(s) == [t] + rest;
      LastOfCons(t, rest);
      ScanLexemes(s[n..]);
      LexemeChars(t);
      StripBlanksOfBlankFree(t.lexeme);
      SplitStrip(s, n, t.lexeme);
    } else if IsBlank(s[0]) {
      var n := Span(s, IsBlank);
      assert Scan(s) == Scan(s[n..]);
      ScanLexemes(s[n..]);
      StripBlanksOfBlanks(s[..n]);
      SplitStrip(s, n, "");
    }
  }

  lemma SplitStrip(s: string, n: nat, w: string)
    requires n <= |s| && StripBlanks(s[..n]) == w
    ensures StripBlanks(s) == w + StripBlanks(s[n..])
  {
    assert s == s[..n] + s[n..];
    StripBlanksAppend(s[..n], s[n..]);
  }

  lemma TokenizeLexemes(s: string, ts: seq<Token>)
    requires InDomain(s) && Tokenize(s) == Ok(ts)
    ensures Lexemes(ts) == StripBlanks(s)
  {
    ScanLexemes(s);
  }

  /** A character that no real pattern matches stops the scan with the
      MISMATCH marker, wherever it occurs: tokenizing "3 & 2" fails. */
  lemma {:induction false} ScanStopsAtDisallowed(s: string, i: nat)
    requires InDomain(s) && i < |s| && !IsAllowed(s[i])
    ensures Scan(s)[|Scan(s)| - 1].kind == Mismatch
    decreases |s|
  {
    if StartsToken(s[0]) {
      var t := TokenAt(s);
      var n := |t.lexeme|;
      DisallowedPastToken(s, i);
      InDomainSuffix(s, n);
      ScanStopsAtDisallowed(s[n..], i - n);
      ScanOfToken(s);
      LastOfCons(t, Scan(s[n..]));
    } else if IsBlank(s[0]) {
      var n := Span(s, IsBlank);
      DisallowedPastBlanks(s, i);
      InDomainSuffix(s, n);
      ScanStopsAtDisallowed(s[n..], i - n);
      ScanOfBlank(s);
    }
  }

  /** A character no pattern accepts lies beyond the token at the start. */
  lemma DisallowedPastToken(s: string, i: nat)
    requires |s| > 0 && StartsToken(s[0]) && i < |s| && !IsAllowed(s[i])
    ensures |TokenAt(s).lexeme| <= i && s[|TokenAt(s).lexeme|..][i - |TokenAt(s).lexeme|] == s[i]
  {
    var t := TokenAt(s);
    LexemeChars(t);
    assert forall j :: 0 <= j < |t.lexeme| ==> t.lexeme[j] == s[j];
  }

  /** ... and beyond the blank run at the start. */
  lemma DisallowedPastBlanks(s: string, i: nat)
    requires i < |s| && !IsAllowed(s[i])
    ensures Span(s, IsBlank) <= i && s[Span(s, IsBlank)..][i - Span(s, IsBlank)] == s[i]
  {
  }

  lemma RejectsDisallowed(s: string, i: nat)
    requires InDomain(s) && i < |s| && !IsAllowed(s[i])
    ensures Tokenize(s).Err? && Tokenize(s).error.LexError?
  {
    ScanStopsAtDisallowed(s, i);
  }

  /** Conversely, text made only of characters the patterns accept, and
      with no '.', always tokenizes: a '.' is the only allowed character
      that can be left over (as in "3." or ".5"). */
  lemma {:induction false} ScanReachesEof(s: string)
    requires InDomain(s)
    requires forall i :: 0 <= i < |s| ==> IsAllowed(s[i]) && s[i] != '.'
    ensures Scan(s)[|Scan(s)| - 1].kind == Eof
    decreases |s|
  {
    if |s| > 0 {
      if StartsToken(s[0]) {
        var t := TokenAt(s);
        ScanReachesEof(s[|t.lexeme|..]);
        LastOfCons(t, Scan(s[|t.lexeme|..]));
      } else {
        ScanReachesEof(s[Span(s, IsBlank)..]);
      }
    }
  }

  lemma AcceptsDotFree(s: string)
    requires InDomain(s)
    requires forall i :: 0 <= i < |s| ==> IsAllowed(s[i]) && s[i] != '.'
    ensures Tokenize(s).Ok?
  {
    ScanReachesEof(s);
  }

  lemma {:induction false} SpanOfPrefix(a: string, b: string, p: char -> bool)
    requires forall i :: 0 <= i < |a| ==> p(a[i])
    requires |b| == 0 || !p(b[0])
    ensures Span(a + b, p) == |a|
    decreases |a|
  {
    if |a| > 0 {
      assert (a + b)[1..] == a[1..] + b;
      SpanOfPrefix(a[1..], b, p);
    } else {
      assert a + b == b;
    }
  }

  lemma NumberLengthOfLexeme(w: string, rest: string)
    requires IsNumberLexeme(w) && (|rest| == 0 || IsDelimiter(rest[0]))
    ensures |w + rest| > 0 && IsDigit((w + rest)[0])
    ensures NumberLength(w + rest) == |w|
  {
    if AllDigits(w) {
      IntegerLength(w, rest);
    } else {
      var k :| 0 < k < |w| - 1 && w[k] == '.' && AllDigits(w[..k]) && AllDigits(w[k + 1..]);
      DecimalLength(w, k, rest);
    }
  }

  /** A digit run followed by a delimiter is matched whole. */
  lemma IntegerLength(w: string, rest: string)
    requires |w| > 0 && AllDigits(w) && (|rest| == 0 || IsDelimiter(rest[0]))
    ensures |w + rest| > 0 && IsDigit((w + rest)[0])
    ensures NumberLength(w + rest) == |w|
  {
    assert (w + rest)[0] == w[0];
    SpanOfPrefix(w, rest, IsDigit);
  }

  /** Digits, a '.' at `k` and digits, followed by a delimiter, are matched
      whole. */
  lemma DecimalLength(w: string, k: nat, rest: string)
    requires 0 < k < |w| - 1 && w[k] == '.' && AllDigits(w[..k]) && AllDigits(w[k + 1..])
    requires |rest| == 0 || IsDelimiter(rest[0])
    ensures |w + rest| > 0 && IsDigit((w + rest)[0])
    ensures NumberLength(w + rest) == |w|
  {
    var s := w + rest;
    assert w[..k][0] == s[0];
    assert s == w[..k] + (w[k..] + rest);
    SpanOfPrefix(w[..k], w[k..] + rest, IsDigit);
    assert Span(s, IsDigit) == k;
    assert s[k + 1..] == w[k + 1..] + rest;
    assert w[k + 1..][0] == s[k + 1];
    SpanOfPrefix(w[k + 1..], rest, IsDigit);
  }

  /** A token whose lexeme is followed by a blank, an operator, a
      parenthesis or the end of the text is scanned back as itself; an
      operator or parenthesis token may be followed by anything. */
  lemma {:induction false} ScanToken(t: Token, rest: string)
    requires Fits(t) && !Terminal(t)
    requires |rest| == 0 || IsDelimiter(rest[0]) || IsPunct(t.lexeme[0])
    requires InDomain(t.lexeme + rest)
    ensures InDomain(rest)
    ensures Scan(t.lexeme + rest) == [t] + Scan(rest)
  {
    var s := t.lexeme + rest;
    TokenAtLexeme(t, rest);
    InDomainSuffix(s, |t.lexeme|);
    assert s[|t.lexeme|..] == rest;
    ScanOfToken(s);
  }

  /** The token the lexer matches at the start of `t.lexeme + rest` is `t`. */
  lemma TokenAtLexeme(t: Token, rest: string)
    requires Fits(t) && !Terminal(t)
    requires |rest| == 0 || IsDelimiter(rest[0]) || IsPunct(t.lexeme[0])
    ensures |t.lexeme + rest| > 0 && StartsToken((t.lexeme + rest)[0])
    ensures TokenAt(t.lexeme + rest) == t
  {
    var w := t.lexeme;
    var s := w + rest;
    LexemeChars(t);
    assert s[0] == w[0];
    if t.kind == Number {
      NumberLengthOfLexeme(w, rest);
    } else if t.kind == Ident {
      assert s[1..] == w[1..] + rest;
      SpanOfPrefix(w[1..], rest, IsWordChar);
    }
  }

  lemma SpanOfCons(c: char, rest: string, p: char -> bool)
    requires p(c)
    ensures Span([c] + rest, p) == 1 + Span(rest, p)
  {
    assert ([c] + rest)[1..] == rest;
  }

  lemma ScanOfToken(s: string)
    requires InDomain(s) && |s| > 0 && StartsToken(s[0])
    ensures InDomain(s[|TokenAt(s).lexeme|..])
    ensures Scan(s) == [TokenAt(s)] + Scan(s[|TokenAt(s).lexeme|..])
  {
    InDomainSuffix(s, |TokenAt(s).lexeme|);
  }

  lemma ScanOfBlank(s: string)
    requires InDomain(s) && |s| > 0 && IsBlank(s[0])
    ensures InDomain(s[Span(s, IsBlank)..])
    ensures Scan(s) == Scan(s[Span(s, IsBlank)..])
  {
    InDomainSuffix(s, Span(s, IsBlank));
    assert !StartsToken(s[0]);
  }

  lemma InDomainSuffix(s: string, n: nat)
    requires InDomain(s) && n <= |s|
    ensures InDomain(s[n..])
  {
    assert forall j :: 0 <= j < |s| - n ==> s[n..][j] == s[n + j];
  }

  /** A blank adds no token. */
  lemma {:induction false} ScanBlank(c: char, rest: string)
    requires IsBlank(c) && InDomain([c] + rest)
    ensures InDomain(rest)
    ensures Scan([c] + rest) == Scan(rest)
  {
    var s := [c] + rest;
    InDomainSuffix(s, 1);
    assert s[1..] == rest;
    var m := Span(rest, IsBlank);
    SpanOfCons(c, rest, IsBlank);
    assert s[1 + m..] == rest[m..];
    ScanOfBlank(s);
    if m == 0 {
      assert rest[m..] == rest;
    } else {
      ScanOfBlank(rest);
    }
  }

  /** A character no pattern but MISMATCH accepts ends the scan with the
      marker for that character alone. */
  lemma ScanMismatch(s: string)
    requires InDomain(s) && |s| > 0 && !StartsToken(s[0]) && !IsBlank(s[0])
    ensures Scan(s) == [Token(Mismatch, s[..1])]
  {
  }
}

=== FILE: literals.dfy ===
/** Character classes of the token patterns and the value of a numeric
    literal, over ASCII text (parser_edts.py:5-16, 60).

    `\d` is `IsDigit`, `[a-zA-Z_]` is `IsIdentStart`, `\w` is `IsWordChar`
    and `[ \t]` is `IsBlank`, all restricted to ASCII. */
module Literals {

  predicate IsDigit(c: char) {
    '0' <= c <= '9'
  }

  predicate IsLetter(c: char) {
    ('a' <= c <= 'z') || ('A' <= c <= 'Z')
  }

  predicate IsIdentStart(c: char) {
    IsLetter(c) || c == '_'
  }

  predicate IsWordChar(c: char) {
    IsIdentStart(c) || IsDigit(c)
  }

  predicate IsBlank(c: char) {
    c == ' ' || c == '\t'
  }

  /** The single-character operator and parenthesis tokens. */
  predicate IsPunct(c: char) {
    c == '+' || c == '-' || c == '*' || c == '/' || c == '(' || c == ')'
  }

  /** Characters that can end a number or identifier lexeme without being
      part of it and without starting a longer match. */
  predicate IsDelimiter(c: char) {
    IsBlank(c) || IsPunct(c)
  }

  /** Characters that some token pattern other than MISMATCH can consume. */
  predicate IsAllowed(c: char) {
    IsWordChar(c) || IsBlank(c) || IsPunct(c) || c == '.'
  }

  predicate AllDigits(w: string) {
    forall i :: 0 <= i < |w| ==> IsDigit(w[i])
  }

  /** The language of `\d+(\.\d+)?`. */
  predicate IsNumberLexeme(w: string) {
    || (|w| > 0 && AllDigits(w))
    || (exists k :: 0 < k < |w| - 1 && w[k] == '.' && AllDigits(w[..k]) && AllDigits(w[k + 1..]))
  }

  /** The language of `[a-zA-Z_]\w*`. */
  predicate IsIdentifier(w: string) {
    && |w| > 0
    && IsIdentStart(w[0])
    && forall i :: 1 <= i < |w| ==> IsWordChar(w[i])
  }

  function DigitValue(c: char): int {
    c as int - '0' as int
  }

  /** The decimal value of a digit string, most significant digit first,
      as Python's `int(text)` reads it. */
  function DigitsValue(w: string): int
    decreases |w|
  {
    if |w| == 0 then 0 else DigitsValue(w[..|w| - 1]) * 10 + DigitValue(w[|w| - 1])
  }

  function Pow10(n: nat): (p: nat)
    ensures p > 0
  {
    if n == 0 then 1 else 10 * Pow10(n - 1)
  }

  /** Position of the first '.' in `w`, or `|w|` when there is none. */
  function DotIndex(w: string): (k: nat)
    ensures k <= |w|
    ensures forall i :: 0 <= i < k ==> w[i] != '.'
    ensures k < |w| ==> w[k] == '.'
  {
    if |w| == 0 then 0
    else if w[0] == '.' then 0
    else 1 + DotIndex(w[1..])
  }

  /** Digits of a natural number, most significant first, without leading
      zeros (except the single digit of zero). */
  function NatToDigits(n: nat): (w: string)
    ensures |w| > 0 && AllDigits(w)
  {
    if n < 10 then [('0' as int + n) as char]
    else NatToDigits(n / 10) + [('0' as int + n % 10) as char]
  }

  /** `DigitsValue` reads back what `NatToDigits` writes. */
  lemma {:induction false} DigitsValueOfNatToDigits(n: nat)
    ensures DigitsValue(NatToDigits(n)) == n
  {
    if n >= 10 {
      var w := NatToDigits(n);
      assert w[..|w| - 1] == NatToDigits(n / 10);
      DigitsValueOfNatToDigits(n / 10);
    }
  }

  /** Reading `p + q` equals shifting `p` left by `|q|` digits and adding `q`. */
  lemma {:induction false} DigitsValueAppend(p: string, q: string)
    ensures DigitsValue(p + q) == DigitsValue(p) * Pow10(|q|) + DigitsValue(q)
    decreases |q|
  {
    if |q| == 0 {
      assert p + q == p;
    } else {
      var q' := q[..|q| - 1];
      assert (p + q)[..|p + q| - 1] == p + q';
      DigitsValueAppend(p, q');
      assert DigitsValue(q) == DigitsValue(q') * 10 + DigitValue(q[|q| - 1]);
    }
  }
}

=== FILE: parser.dfy ===
/** The recursive-descent parser (parser_edts.py:108-165):

      expr   := term (('+' | '-') term)*
      term   := factor (('*' | '/') factor)*
      factor := '(' expr ')' | NUMBER | ID

    Each rule is a function from the remaining token stream to the node it
    built and the stream after it. The head of the stream is the parser's
    `lookahead`; pulling the token after it is what can raise the lexer's
    error, so `Eat` is where a `Mismatch` marker turns into `LexError`. */
module Parser {
  import opened Wrappers
  import opened Literals
  import opened Values
  import opened Tokens
  import opened Errors
  import opened Ast
  import Lexer

  /** A stream whose head has been pulled without error: the lexer's
      framing, and the head is a real token or EOF. */
  predicate Pending(ts: seq<Token>) {
    Framed(ts) && ts[0].kind != Mismatch
  }

  predicate IsAddOp(k: Kind) {
    k == Plus || k == Minus
  }

  predicate IsMulOp(k: Kind) {
    k == Mul || k == Div
  }

  datatype Parsed = Parsed(node: Node, rest: seq<Token>)

  /** What every rule promises on success: it consumed at least one token,
      left a pending stream with the same final token, and built a tree the
      grammar allows. */
  predicate Progress(ts: seq<Token>, p: Parsed)
    requires |ts| > 0
  {
    && |p.rest| < |ts|
    && Pending(p.rest)
    && p.rest[|p.rest| - 1] == ts[|ts| - 1]
    && WellFormed(p.node)
  }

  /** `eat(token_type)` (parser_edts.py:113-118): consume the lookahead if
      it has the expected kind, pulling the next token. */
  function Eat(kind: Kind, ts: seq<Token>): (r: Result<seq<Token>, Error>)
    requires Pending(ts) && kind != Eof && kind != Mismatch
    ensures r.Ok? ==> ts[0].kind == kind && r.value == ts[1..] && Pending(r.value)
    ensures ts[0].kind != kind ==> r == Err(Expected(kind, ts[0]))
    ensures r.Err? && ts[0].kind == kind ==> r.error == LexError(ts[1].lexeme) && ts[1].kind == Mismatch
  {
    if ts[0].kind != kind then Err(Expected(kind, ts[0]))
    else if ts[1].kind == Mismatch then Err(LexError(ts[1].lexeme))
    else Ok(ts[1..])
  }

  /** `expr` (parser_edts.py:126-136). */
  function Expr(ts: seq<Token>): (r: Result<Parsed, Error>)
    requires Pending(ts)
    ensures r.Ok? ==> Progress(ts, r.value)
    ensures r.Ok? ==> !IsAddOp(r.value.rest[0].kind) && !IsMulOp(r.value.rest[0].kind)
    ensures r.Err? ==> IsSyntaxError(r.error)
    decreases |ts|, 2
  {
    var first :- Term(ts);
    ExprLoop(first.node, first.rest)
  }

  /** The `while` loop of `expr`: fold `+` and `-` to the left onto `acc`. */
  function ExprLoop(acc: Node, ts: seq<Token>): (r: Result<Parsed, Error>)
    requires Pending(ts) && WellFormed(acc) && !IsMulOp(ts[0].kind)
    ensures r.Ok? ==> |r.value.rest| <= |ts| && Pending(r.value.rest)
    ensures r.Ok? ==> r.value.rest[|r.value.rest| - 1] == ts[|ts| - 1] && WellFormed(r.value.node)
    ensures r.Ok? ==> !IsAddOp(r.value.rest[0].kind) && !IsMulOp(r.value.rest[0].kind)
    ensures r.Err? ==> IsSyntaxError(r.error)
    decreases |ts|, 3
  {
    if IsAddOp(ts[0].kind) then
      OperatorStep(ts);
      var op := ts[0].lexeme;
      var afterOp :- Eat(ts[0].kind, ts);
      var right :- Term(afterOp);
      ExprLoop(BinOpNode(op, acc, right.node), right.rest)
    else
      Ok(Parsed(acc, ts))
  }

  /** An operator at the head of a pending stream is one of `+ - * /`, and
      the stream after it ends as the stream does. */
  lemma OperatorStep(ts: seq<Token>)
    requires Pending(ts) && (IsAddOp(ts[0].kind) || IsMulOp(ts[0].kind))
    ensures IsArithOp(ts[0].lexeme) && |ts| > 1
    ensures ts[1..][|ts| - 2] == ts[|ts| - 1]
  {
    assert Fits(ts[0]);
  }

  /** A real token at the head of a pending stream fits its kind, and the
      stream after it ends as the stream does. */
  lemma TokenStep(ts: seq<Token>)
    requires Pending(ts) && ts[0].kind != Eof
    ensures Fits(ts[0]) && |ts| > 1
    ensures ts[1..][|ts| - 2] == ts[|ts| - 1]
  {
  }

  /** `term` (parser_edts.py:138-148). */
  function Term(ts: seq<Token>): (r: Result<Parsed, Error>)
    requires Pending(ts)
    ensures r.Ok? ==> Progress(ts, r.value) && !IsMulOp(r.value.rest[0].kind)
    ensures r.Err? ==> IsSyntaxError(r.error)
    decreases |ts|, 1
  {
    var first :- Factor(ts);
    TermLoop(first.node, first.rest)
  }

  /** The `while` loop of `term`: fold `*` and `/` to the left onto `acc`. */
  function TermLoop(acc: Node, ts: seq<Token>): (r: Result<Parsed, Error>)
    requires Pending(ts) && WellFormed(acc)
    ensures r.Ok? ==> |r.value.rest| <= |ts| && Pending(r.value.rest)
    ensures r.Ok? ==> r.value.rest[|r.value.rest| - 1] == ts[|ts| - 1] && WellFormed(r.value.node)
    ensures r.Ok? ==> !IsMulOp(r.value.rest[0].kind)
    ensures r.Err? ==> IsSyntaxError(r.error)
    decreases |ts|, 3
  {
    if IsMulOp(ts[0].kind) then
      OperatorStep(ts);
      var op := ts[0].lexeme;
      var afterOp :- Eat(ts[0].kind, ts);
      var right :- Factor(afterOp);
      TermLoop(BinOpNode(op, acc, right.node), right.rest)
    else
      Ok(Parsed(acc, ts))
  }

  /** `factor` (parser_edts.py:150-165). */
  function Factor(ts: seq<Token>): (r: Result<Parsed, Error>)
    requires Pending(ts)
    ensures r.Ok? ==> Progress(ts, r.value)
    ensures r.Ok? ==> ts[0].kind == LParen || ts[0].kind == Number || ts[0].kind == Ident
    ensures r.Err? && !(ts[0].kind in {LParen, Number, Ident}) ==> r.error == UnexpectedFactor(ts[0])
    ensures r.Err? ==> IsSyntaxError(r.error)
    decreases |ts|, 0
  {
    var lookahead := ts[0];
    match lookahead.kind
    case LParen =>
      TokenStep(ts);
      var inner :- Eat(LParen, ts);
      var group :- Expr(inner);
      var after :- Eat(RParen, group.rest);
      Ok(Parsed(group.node, after))
    case Number =>
      var after :- Eat(Number, ts);
      Ok(Parsed(NewNumberNode(lookahead.lexeme), after))
    case Ident =>
      var after :- Eat(Ident, ts);
      Ok(Parsed(IdNode(lookahead.lexeme), after))
    case _ =>
      Err(UnexpectedFactor(lookahead))
  }

  /** `Parser(lexer).parse()` (parser_edts.py:109-111, 120-124): pull the
      first token, parse an `expr`, and demand that EOF follows it. On
      success the whole input was lexed: the stream ends with EOF. */
  function Parse(ts: seq<Token>): (r: Result<Node, Error>)
    requires Framed(ts)
    ensures r.Ok? ==> WellFormed(r.value) && ts[|ts| - 1].kind == Eof
    ensures r.Ok? ==> forall i :: 0 <= i < |ts| ==> ts[i].kind != Mismatch
    ensures r.Ok? ==> ts[0].kind != Mismatch && Expr(ts) == Ok(Parsed(r.value, [Token(Eof, "")]))
    ensures ts[0].kind == Mismatch ==> r == Err(LexError(ts[0].lexeme))
    ensures r.Err? ==> IsSyntaxError(r.error)
  {
    if ts[0].kind == Mismatch then
      Err(LexError(ts[0].lexeme))
    else
      var p :- Expr(ts);
      if p.rest[0].kind != Eof then Err(TrailingInput(p.rest[0]))
      else
        OnlyEofLeft(p.rest);
        Ok(p.node)
  }

  /** A pending stream that starts with EOF is EOF alone. */
  lemma OnlyEofLeft(ts: seq<Token>)
    requires Pending(ts) && ts[0].kind == Eof
    ensures ts == [Token(Eof, "")]
  {
    assert Fits(ts[0]);
  }

  /** The parser over the lexer of `text`. A successful parse implies that
      the text tokenizes. */
  function ParseText(text: string): (r: Result<Node, Error>)
    requires Lexer.InDomain(text)
    ensures r.Ok? ==> WellFormed(r.value) && Lexer.Tokenize(text).Ok?
    ensures r.Err? ==> IsSyntaxError(r.error)
  {
    Parse(Lexer.Scan(text))
  }
}

=== FILE: pipeline.dfy ===
/** The parse-then-evaluate sequence the driver runs for each input
    (parser_edts.py:234-246), without its printing. */
module Pipeline {
  import opened Wrappers
  import opened Values
  import opened Errors
  import opened Ast
  import opened Parser
  import opened Symbols
  import opened Evaluator
  import opened RoundTrip
  import Lexer

  /** Parse `text`, then evaluate the tree against `t`; the first error of
      either phase is the result. A text that parses to a tree whose
      meaning is defined always runs to that meaning. */
  function Run(text: string, t: Table): (r: Result<Value, Error>)
    requires Lexer.InDomain(text)
    ensures r.Ok? ==> ParseText(text).Ok? && Denote(ParseText(text).value, Reals(t)) == Some(Real(r.value))
    ensures ParseText(text).Ok? && Denote(ParseText(text).value, Reals(t)).Some? ==> r.Ok?
    ensures r.Err? ==>
              || (ParseText(text) == Err(r.error) && IsSyntaxError(r.error))
              || (ParseText(text).Ok? && Blames(ParseText(text).value, t, r.error))
  {
    var n :- ParseText(text);
    Eval(n, t)
  }

  /** The unknown-operator error can never come out of a run: the parser
      only builds `+ - * /` nodes. A run that yields a value lexed its
      whole text. */
  lemma RunNeverMeetsUnknownOperator(text: string, t: Table)
    requires Lexer.InDomain(text)
    ensures Run(text, t).Err? ==> !Run(text, t).error.UnknownOperator?
    ensures Run(text, t).Ok? ==> Lexer.Tokenize(text).Ok?
  {
    var p := ParseText(text);
    if p.Ok? {
      assert Run(text, t) == Eval(p.value, t);
      EvalNeverMeetsUnknownOperator(p.value, t);
    }
  }

  lemma EvalNeverMeetsUnknownOperator(n: Node, t: Table)
    requires WellFormed(n)
    ensures Eval(n, t).Err? ==> !Eval(n, t).error.UnknownOperator?
  {
    WellFormedOpsClosed(n);
    ClosedTreesHaveNoUnknownOperator(n, t);
  }

  /** Running the printed text of a tree evaluates that very tree. */
  lemma RunShow(n: Node, t: Table)
    requires WellFormed(n)
    ensures Lexer.InDomain(Show(n))
    ensures Run(Show(n), t) == Eval(n, t)
  {
    TextRoundTrip(n);
  }
}

=== FILE: roundtrip.dfy ===
/** The inverse of the parser: printing a tree as tokens with the fewest
    parentheses the grammar needs, and the proof that parsing the printout
    gives back the same tree. Left associativity, precedence and the
    transparency of parentheses (parser_edts.py:126-165) all follow. */
module RoundTrip {
  import opened Wrappers
  import opened Literals
  import opened Values
  import opened Tokens
  import opened Errors
  import opened Ast
  import opened Parser
  import Lexer
  import LexerFacts

  /** The token of an operator lexeme. */
  function OpToken(op: string): (t: Token)
    requires IsArithOp(op)
    ensures t.lexeme == op && Fits(t)
    ensures IsAddOp(t.kind) <==> op == "+" || op == "-"
    ensures IsMulOp(t.kind) <==> op == "*" || op == "/"
  {
    if op == "+" then Token(Plus, "+")
    else if op == "-" then Token(Minus, "-")
    else if op == "*" then Token(Mul, "*")
    else Token(Div, "/")
  }

  predicate IsAdditive(n: Node) {
    n.BinOpNode? && (n.op == "+" || n.op == "-")
  }

  predicate IsMultiplicative(n: Node) {
    n.BinOpNode? && (n.op == "*" || n.op == "/")
  }

  /** Real tokens only: none is EOF or a lexical error, and each lexeme
      fits its kind. */
  predicate AllReal(ts: seq<Token>) {
    forall i :: 0 <= i < |ts| ==> Fits(ts[i]) && !Terminal(ts[i])
  }

  /** An operator node printed without surrounding parentheses: the left
      operand at the operator's own level, the right one a level tighter. */
  function OperatorTokens(n: Node): (ts: seq<Token>)
    requires WellFormed(n) && n.BinOpNode?
    ensures |ts| > 0 && AllReal(ts)
    decreases n, 0
  {
    if IsAdditive(n) then ExprTokens(n.left) + [OpToken(n.op)] + TermTokens(n.right)
    else TermTokens(n.left) + [OpToken(n.op)] + FactorTokens(n.right)
  }

  /** A tree printed where the grammar expects an `expr`. */
  function ExprTokens(n: Node): (ts: seq<Token>)
    requires WellFormed(n)
    ensures |ts| > 0 && AllReal(ts)
    decreases n, 3
  {
    if IsAdditive(n) then OperatorTokens(n) else TermTokens(n)
  }

  /** A tree printed where the grammar expects a `term`. */
  function TermTokens(n: Node): (ts: seq<Token>)
    requires WellFormed(n)
    ensures |ts| > 0 && AllReal(ts)
    decreases n, 2
  {
    if IsMultiplicative(n) then OperatorTokens(n) else FactorTokens(n)
  }

  /** A tree printed where the grammar expects a `factor`: operator nodes
      get parentheses. */
  function FactorTokens(n: Node): (ts: seq<Token>)
    requires WellFormed(n)
    ensures |ts| > 0 && AllReal(ts)
    decreases n, 1
  {
    match n
    case NumberNode(text, _) => [Token(Number, text)]
    case IdNode(name) => [Token(Ident, name)]
    case BinOpNode(_, _, _) => [Token(LParen, "(")] + OperatorTokens(n) + [Token(RParen, ")")]
  }

  /** Real tokens in front of a pending stream leave it pending. */
  lemma PendingAppend(xs: seq<Token>, rest: seq<Token>)
    requires AllReal(xs) && Pending(rest)
    ensures Pending(xs + rest)
    ensures (xs + rest)[|xs + rest| - 1] == rest[|rest| - 1]
    ensures |xs| > 0 ==> (xs + rest)[0] == xs[0]
  {
    var ts := xs + rest;
    assert forall i :: |xs| <= i < |ts| ==> ts[i] == rest[i - |xs|];
  }

  /** A real token in front of a pending stream. */
  lemma Prefixed(t: Token, rest: seq<Token>)
    requires Fits(t) && !Terminal(t) && Pending(rest)
    ensures Pending([t] + rest) && ([t] + rest)[0] == t && ([t] + rest)[1..] == rest
  {
    PendingAppend([t], rest);
  }

  /** An operator token and an operand's tokens in front of a pending
      stream. */
  lemma Linked(t: Token, xs: seq<Token>, later: seq<Token>)
    requires Fits(t) && !Terminal(t) && AllReal(xs) && Pending(later)
    ensures Pending(xs + later)
    ensures Pending([t] + xs + later) && ([t] + xs + later)[0] == t
    ensures ([t] + xs + later)[1..] == xs + later
  {
    PendingAppend(xs, later);
    Prefixed(t, xs + later);
    assert [t] + xs + later == [t] + (xs + later);
  }

  lemma Regroup(a: seq<Token>, t: Token, b: seq<Token>, rest: seq<Token>)
    ensures a + [t] + b + rest == a + ([t] + b + rest)
  {
  }

  /** The tokens of a parenthesised group in front of a pending stream. */
  lemma Grouped(inner: seq<Token>, rest: seq<Token>)
    requires AllReal(inner) && Pending(rest)
    ensures AllReal([Token(LParen, "(")] + inner + [Token(RParen, ")")])
    ensures Pending([Token(RParen, ")")] + rest)
    ensures Pending([Token(LParen, "(")] + inner + [Token(RParen, ")")] + rest)
    ensures ([Token(LParen, "(")] + inner + [Token(RParen, ")")] + rest)[0].kind == LParen
    ensures ([Token(LParen, "(")] + inner + [Token(RParen, ")")] + rest)[1..] == inner + ([Token(RParen, ")")] + rest)
    ensures ([Token(RParen, ")")] + rest)[1..] == rest
  {
    var close := [Token(RParen, ")")] + rest;
    var group := [Token(LParen, "(")] + inner + [Token(RParen, ")")];
    var ts := group + rest;
    ParenthesisedReal(inner);
    PendingAppend(group, rest);
    Prefixed(Token(RParen, ")"), rest);
    assert ts == [Token(LParen, "(")] + (inner + close);
  }

  /** The `term` loop stops at a token that is not `*` or `/`. */
  lemma TermLoopStops(acc: Node, ts: seq<Token>)
    requires Pending(ts) && WellFormed(acc) && !IsMulOp(ts[0].kind)
    ensures TermLoop(acc, ts) == Ok(Parsed(acc, ts))
  {
  }

  lemma ConsAssoc(t: Token, a: seq<Token>, b: seq<Token>)
    ensures [t] + a + b == [t] + (a + b)
  {
  }

  /** The `expr` loop stops at a token that is no operator. */
  lemma ExprLoopStops(acc: Node, ts: seq<Token>)
    requires Pending(ts) && WellFormed(acc) && !IsAddOp(ts[0].kind) && !IsMulOp(ts[0].kind)
    ensures ExprLoop(acc, ts) == Ok(Parsed(acc, ts))
  {
  }

  /** One turn of the `expr` loop: an additive operator followed by a
      `term` that parses to `r` extends the accumulator on the left. */
  lemma ExprLoopStep(acc: Node, tail: seq<Token>, r: Node, rest: seq<Token>)
    requires Pending(tail) && WellFormed(acc) && IsAddOp(tail[0].kind)
    requires Pending(tail[1..]) && Term(tail[1..]) == Ok(Parsed(r, rest))
    ensures Pending(rest) && WellFormed(r) && !IsMulOp(rest[0].kind)
    ensures ExprLoop(acc, tail) == ExprLoop(BinOpNode(tail[0].lexeme, acc, r), rest)
  {
  }

  /** One turn of the `term` loop: a multiplicative operator followed by a
      `factor` that parses to `r` extends the accumulator on the left. */
  lemma TermLoopStep(acc: Node, tail: seq<Token>, r: Node, rest: seq<Token>)
    requires Pending(tail) && WellFormed(acc) && IsMulOp(tail[0].kind)
    requires Pending(tail[1..]) && Factor(tail[1..]) == Ok(Parsed(r, rest))
    ensures Pending(rest) && WellFormed(r)
    ensures TermLoop(acc, tail) == TermLoop(BinOpNode(tail[0].lexeme, acc, r), rest)
  {
  }

  /** A `factor` that nothing of a higher level follows is a whole `expr`. */
  lemma FactorIsExpr(ts: seq<Token>, n: Node, rest: seq<Token>)
    requires Pending(ts) && Factor(ts) == Ok(Parsed(n, rest))
    requires !IsAddOp(rest[0].kind) && !IsMulOp(rest[0].kind)
    ensures Term(ts) == Ok(Parsed(n, rest)) && Expr(ts) == Ok(Parsed(n, rest))
  {
  }

  /** Real tokens in parentheses are real tokens. */
  lemma ParenthesisedReal(inner: seq<Token>)
    requires AllReal(inner)
    ensures AllReal([Token(LParen, "(")] + inner + [Token(RParen, ")")])
  {
    var group := [Token(LParen, "(")] + inner + [Token(RParen, ")")];
    assert forall i :: 1 <= i < |group| - 1 ==> group[i] == inner[i - 1];
  }

  /** A parenthesised `expr` that parses to `n` is a `factor` for `n`. */
  lemma GroupParses(inner: seq<Token>, n: Node, rest: seq<Token>)
    requires AllReal(inner) && Pending(rest)
    requires Pending(inner + ([Token(RParen, ")")] + rest))
    requires Expr(inner + ([Token(RParen, ")")] + rest)) == Ok(Parsed(n, [Token(RParen, ")")] + rest))
    ensures AllReal([Token(LParen, "(")] + inner + [Token(RParen, ")")])
    ensures Pending([Token(LParen, "(")] + inner + [Token(RParen, ")")] + rest)
    ensures Factor([Token(LParen, "(")] + inner + [Token(RParen, ")")] + rest) == Ok(Parsed(n, rest))
  {
    Grouped(inner, rest);
    FactorOfGroup([Token(LParen, "(")] + inner + [Token(RParen, ")")] + rest, n, [Token(RParen, ")")] + rest);
  }

  /** The `'(' expr ')'` branch of `factor`. */
  lemma FactorOfGroup(ts: seq<Token>, n: Node, close: seq<Token>)
    requires Pending(ts) && ts[0].kind == LParen
    requires Pending(ts[1..]) && Expr(ts[1..]) == Ok(Parsed(n, close))
    requires close[0].kind == RParen && Pending(close[1..])
    ensures Factor(ts) == Ok(Parsed(n, close[1..]))
  {
  }

  /** The first `term` of an `expr` starts the `expr` loop. */
  lemma TermStartsExpr(ts: seq<Token>, n: Node, rest: seq<Token>)
    requires Pending(ts) && Term(ts) == Ok(Parsed(n, rest))
    ensures Pending(rest) && WellFormed(n) && !IsMulOp(rest[0].kind)
    ensures Expr(ts) == ExprLoop(n, rest)
  {
  }

  /** An operator node followed by anything but `*` or `/` parses back,
      as an `expr`, to itself. */
  lemma {:induction false} OperatorRoundTrip(n: Node, rest: seq<Token>)
    requires WellFormed(n) && n.BinOpNode? && Pending(rest) && !IsMulOp(rest[0].kind)
    ensures Pending(OperatorTokens(n) + rest)
    ensures Expr(OperatorTokens(n) + rest) == ExprLoop(n, rest)
    decreases n, 1
  {
    if IsAdditive(n) {
      AdditiveRoundTrip(n, rest);
    } else {
      MultiplicativeRoundTrip(n, rest);
    }
  }

  lemma {:induction false} AdditiveRoundTrip(n: Node, rest: seq<Token>)
    requires WellFormed(n) && IsAdditive(n) && Pending(rest) && !IsMulOp(rest[0].kind)
    ensures Pending(OperatorTokens(n) + rest)
    ensures Expr(OperatorTokens(n) + rest) == ExprLoop(n, rest)
    decreases n, 0
  {
    var tail := [OpToken(n.op)] + TermTokens(n.right) + rest;
    Linked(OpToken(n.op), TermTokens(n.right), rest);
    Regroup(ExprTokens(n.left), OpToken(n.op), TermTokens(n.right), rest);
    ExprRoundTrip(n.left, tail);
    TermRoundTrip(n.right, rest);
    TermLoopStops(n.right, rest);
    ExprLoopStep(n.left, tail, n.right, rest);
  }

  lemma {:induction false} MultiplicativeRoundTrip(n: Node, rest: seq<Token>)
    requires WellFormed(n) && IsMultiplicative(n) && Pending(rest) && !IsMulOp(rest[0].kind)
    ensures Pending(OperatorTokens(n) + rest)
    ensures Expr(OperatorTokens(n) + rest) == ExprLoop(n, rest)
    decreases n, 0
  {
    var tail := [OpToken(n.op)] + FactorTokens(n.right) + rest;
    Linked(OpToken(n.op), FactorTokens(n.right), rest);
    Regroup(TermTokens(n.left), OpToken(n.op), FactorTokens(n.right), rest);
    TermRoundTrip(n.left, tail);
    FactorRoundTrip(n.right, rest);
    TermLoopStep(n.left, tail, n.right, rest);
    TermLoopStops(n, rest);
    TermStartsExpr(OperatorTokens(n) + rest, n, rest);
  }

  /** Parsing a printed `factor` consumes exactly its tokens and returns
      the tree. */
  lemma {:induction false} FactorRoundTrip(n: Node, rest: seq<Token>)
    requires WellFormed(n) && Pending(rest)
    ensures Pending(FactorTokens(n) + rest)
    ensures Factor(FactorTokens(n) + rest) == Ok(Parsed(n, rest))
    decreases n, 2
  {
    if n.BinOpNode? {
      var close := [Token(RParen, ")")] + rest;
      Prefixed(Token(RParen, ")"), rest);
      OperatorRoundTrip(n, close);
      ExprLoopStops(n, close);
      GroupParses(OperatorTokens(n), n, rest);
    } else {
      Prefixed(FactorTokens(n)[0], rest);
    }
  }

  /** Parsing a printed `term` hands the `term` loop the tree itself. */
  lemma {:induction false} TermRoundTrip(n: Node, rest: seq<Token>)
    requires WellFormed(n) && Pending(rest)
    ensures Pending(TermTokens(n) + rest)
    ensures Term(TermTokens(n) + rest) == TermLoop(n, rest)
    decreases n, 3
  {
    if IsMultiplicative(n) {
      var tail := [OpToken(n.op)] + FactorTokens(n.right) + rest;
      Linked(OpToken(n.op), FactorTokens(n.right), rest);
      Regroup(TermTokens(n.left), OpToken(n.op), FactorTokens(n.right), rest);
      TermRoundTrip(n.left, tail);
      FactorRoundTrip(n.right, rest);
      TermLoopStep(n.left, tail, n.right, rest);
    } else {
      FactorRoundTrip(n, rest);
    }
  }

  /** Parsing a printed `expr` hands the `expr` loop the tree itself. */
  lemma {:induction false} ExprRoundTrip(n: Node, rest: seq<Token>)
    requires WellFormed(n) && Pending(rest) && !IsMulOp(rest[0].kind)
    ensures Pending(ExprTokens(n) + rest)
    ensures Expr(ExprTokens(n) + rest) == ExprLoop(n, rest)
    decreases n, 4
  {
    if IsAdditive(n) {
      OperatorRoundTrip(n, rest);
    } else {
      TermRoundTrip(n, rest);
    }
  }

  /** A printed `expr` followed by a token that is no operator reads as
      exactly that tree. */
  lemma ExprReads(n: Node, rest: seq<Token>)
    requires WellFormed(n) && Pending(rest) && !IsAddOp(rest[0].kind) && !IsMulOp(rest[0].kind)
    ensures Pending(ExprTokens(n) + rest)
    ensures Expr(ExprTokens(n) + rest) == Ok(Parsed(n, rest))
  {
    ExprRoundTrip(n, rest);
    ExprLoopStops(n, rest);
  }

  /** The printed form of a tree, terminated by EOF, parses back to the
      same tree: the parser is a left inverse of the printer. */
  lemma ParseRoundTrip(n: Node)
    requires WellFormed(n)
    ensures Framed(ExprTokens(n) + [Token(Eof, "")])
    ensures Parse(ExprTokens(n) + [Token(Eof, "")]) == Ok(n)
  {
    var eof := [Token(Eof, "")];
    ExprRoundTrip(n, eof);
  }

  /** A complete expression followed by a token that can neither continue
      it nor end the input is trailing input. */
  lemma TrailingInputRejected(n: Node, rest: seq<Token>)
    requires WellFormed(n) && Pending(rest)
    requires !IsAddOp(rest[0].kind) && !IsMulOp(rest[0].kind) && rest[0].kind != Eof
    ensures Framed(ExprTokens(n) + rest)
    ensures Parse(ExprTokens(n) + rest) == Err(TrailingInput(rest[0]))
  {
    ExprRoundTrip(n, rest);
  }

  /** A parenthesis left open: after a complete expression, anything but
      an operator or `)` is reported as a missing `)`. */
  lemma UnclosedParenthesis(n: Node, rest: seq<Token>)
    requires WellFormed(n) && Pending(rest)
    requires !IsAddOp(rest[0].kind) && !IsMulOp(rest[0].kind) && rest[0].kind != RParen
    ensures Framed([Token(LParen, "(")] + ExprTokens(n) + rest)
    ensures Parse([Token(LParen, "(")] + ExprTokens(n) + rest) == Err(Expected(RParen, rest[0]))
  {
    ExprReads(n, rest);
    ConsAssoc(Token(LParen, "("), ExprTokens(n), rest);
    OpenGroupFails(ExprTokens(n) + rest, n, rest);
  }

  /** A `(` in front of an `expr` that stops short of a `)`. */
  lemma OpenGroupFails(inner: seq<Token>, n: Node, rest: seq<Token>)
    requires Pending(inner) && Expr(inner) == Ok(Parsed(n, rest)) && rest[0].kind != RParen
    ensures Framed([Token(LParen, "(")] + inner)
    ensures Parse([Token(LParen, "(")] + inner) == Err(Expected(RParen, rest[0]))
  {
    var ts := [Token(LParen, "(")] + inner;
    Opened(inner);
    FactorOfOpenGroup(ts, n, rest);
    FactorErrorIsParseError(ts);
  }

  /** A `(` in front of a pending stream. */
  lemma Opened(inner: seq<Token>)
    requires Pending(inner)
    ensures Pending([Token(LParen, "(")] + inner)
    ensures ([Token(LParen, "(")] + inner)[0].kind == LParen
    ensures ([Token(LParen, "(")] + inner)[1..] == inner
  {
    PendingAppend([Token(LParen, "(")], inner);
  }

  /** The `'(' expr ')'` branch of `factor` when the `)` is missing. */
  lemma FactorOfOpenGroup(ts: seq<Token>, n: Node, rest: seq<Token>)
    requires Pending(ts) && ts[0].kind == LParen
    requires Pending(ts[1..]) && Expr(ts[1..]) == Ok(Parsed(n, rest))
    requires rest[0].kind != RParen
    ensures Factor(ts) == Err(Expected(RParen, rest[0]))
  {
  }

  /** An error in the first `factor` is the error of the whole parse. */
  lemma FactorErrorIsParseError(ts: seq<Token>)
    requires Pending(ts) && Factor(ts).Err?
    ensures Parse(ts) == Err(Factor(ts).error)
  {
    assert Term(ts) == Err(Factor(ts).error);
    assert Expr(ts) == Err(Factor(ts).error);
  }

  /** Parentheses around an expression add no node. */
  lemma ParenthesesAddNoNode(n: Node)
    requires WellFormed(n)
    ensures Framed([Token(LParen, "(")] + ExprTokens(n) + [Token(RParen, ")"), Token(Eof, "")])
    ensures Parse([Token(LParen, "(")] + ExprTokens(n) + [Token(RParen, ")"), Token(Eof, "")]) == Ok(n)
  {
    var eof := [Token(Eof, "")];
    GroupOfExpr(n, eof);
    assert [Token(LParen, "(")] + ExprTokens(n) + [Token(RParen, ")")] + eof
         == [Token(LParen, "(")] + ExprTokens(n) + [Token(RParen, ")"), Token(Eof, "")];
    WholeFactor([Token(LParen, "(")] + ExprTokens(n) + [Token(RParen, ")")] + eof, n);
  }

  /** Any printed `expr` in parentheses is a `factor` for its tree. */
  lemma GroupOfExpr(n: Node, rest: seq<Token>)
    requires WellFormed(n) && Pending(rest)
    ensures Pending([Token(LParen, "(")] + ExprTokens(n) + [Token(RParen, ")")] + rest)
    ensures Factor([Token(LParen, "(")] + ExprTokens(n) + [Token(RParen, ")")] + rest) == Ok(Parsed(n, rest))
  {
    Prefixed(Token(RParen, ")"), rest);
    ExprReads(n, [Token(RParen, ")")] + rest);
    GroupParses(ExprTokens(n), n, rest);
  }

  /** A `factor` followed by EOF is the whole parse. */
  lemma WholeFactor(ts: seq<Token>, n: Node)
    requires Pending(ts) && Factor(ts) == Ok(Parsed(n, [Token(Eof, "")]))
    ensures Parse(ts) == Ok(n)
  {
    FactorIsExpr(ts, n, [Token(Eof, "")]);
  }

  /** One `op operand` link of a chain `first op1 x1 op2 x2 ...`. */
  datatype Step = Step(op: string, operand: Node)

  /** The chain grouped to the left: `((first op1 x1) op2 x2) ...`. */
  function FoldLeft(acc: Node, steps: seq<Step>): Node
    decreases |steps|
  {
    if |steps| == 0 then acc
    else FoldLeft(BinOpNode(steps[0].op, acc, steps[0].operand), steps[1..])
  }

  /** A chain of `+`/`-` links between well-formed operands. */
  predicate AdditiveSteps(steps: seq<Step>) {
    forall i :: 0 <= i < |steps| ==> (steps[i].op == "+" || steps[i].op == "-") && WellFormed(steps[i].operand)
  }

  /** A chain of `*`/`/` links between well-formed operands. */
  predicate MultiplicativeSteps(steps: seq<Step>) {
    forall i :: 0 <= i < |steps| ==> (steps[i].op == "*" || steps[i].op == "/") && WellFormed(steps[i].operand)
  }

  /** The tokens of an additive chain, each operand printed as a `term`
      so that no parenthesis groups anything, in front of `rest`. */
  function AdditiveChain(steps: seq<Step>, rest: seq<Token>): seq<Token>
    requires AdditiveSteps(steps)
    decreases |steps|
  {
    if |steps| == 0 then rest
    else [OpToken(steps[0].op)] + TermTokens(steps[0].operand) + AdditiveChain(steps[1..], rest)
  }

  /** The tokens of a multiplicative chain, each operand printed as a
      `factor`, in front of `rest`. */
  function MultiplicativeChain(steps: seq<Step>, rest: seq<Token>): seq<Token>
    requires MultiplicativeSteps(steps)
    decreases |steps|
  {
    if |steps| == 0 then rest
    else [OpToken(steps[0].op)] + FactorTokens(steps[0].operand) + MultiplicativeChain(steps[1..], rest)
  }

  /** One printed `+`/`-` link in front of a stream that does not start
      with `*` or `/` is one turn of the `expr` loop. */
  lemma AdditiveLink(acc: Node, op: string, operand: Node, later: seq<Token>)
    requires WellFormed(acc) && WellFormed(operand) && (op == "+" || op == "-")
    requires Pending(later) && !IsMulOp(later[0].kind)
    ensures Pending([OpToken(op)] + TermTokens(operand) + later)
    ensures ExprLoop(acc, [OpToken(op)] + TermTokens(operand) + later)
         == ExprLoop(BinOpNode(op, acc, operand), later)
  {
    Linked(OpToken(op), TermTokens(operand), later);
    TermRoundTrip(operand, later);
    TermLoopStops(operand, later);
    ExprLoopStep(acc, [OpToken(op)] + TermTokens(operand) + later, operand, later);
  }

  /** One printed `*`/`/` link is one turn of the `term` loop. */
  lemma MultiplicativeLink(acc: Node, op: string, operand: Node, later: seq<Token>)
    requires WellFormed(acc) && WellFormed(operand) && (op == "*" || op == "/")
    requires Pending(later)
    ensures Pending([OpToken(op)] + FactorTokens(operand) + later)
    ensures TermLoop(acc, [OpToken(op)] + FactorTokens(operand) + later)
         == TermLoop(BinOpNode(op, acc, operand), later)
  {
    Linked(OpToken(op), FactorTokens(operand), later);
    FactorRoundTrip(operand, later);
    TermLoopStep(acc, [OpToken(op)] + FactorTokens(operand) + later, operand, later);
  }

  lemma AdditiveTail(steps: seq<Step>)
    requires AdditiveSteps(steps) && |steps| > 0
    ensures AdditiveSteps(steps[1..])
  {
    assert forall i :: 0 <= i < |steps| - 1 ==> steps[1..][i] == steps[i + 1];
  }

  lemma MultiplicativeTail(steps: seq<Step>)
    requires MultiplicativeSteps(steps) && |steps| > 0
    ensures MultiplicativeSteps(steps[1..])
  {
    assert forall i :: 0 <= i < |steps| - 1 ==> steps[1..][i] == steps[i + 1];
  }

  /** The `expr` loop folds a whole additive chain to the left. */
  lemma {:induction false} ExprLoopFolds(acc: Node, steps: seq<Step>, rest: seq<Token>)
    requires WellFormed(acc) && AdditiveSteps(steps) && Pending(rest)
    requires !IsAddOp(rest[0].kind) && !IsMulOp(rest[0].kind)
    ensures Pending(AdditiveChain(steps, rest)) && !IsMulOp(AdditiveChain(steps, rest)[0].kind)
    ensures ExprLoop(acc, AdditiveChain(steps, rest)) == Ok(Parsed(FoldLeft(acc, steps), rest))
    decreases |steps|
  {
    if |steps| > 0 {
      var s := steps[0];
      AdditiveTail(steps);
      ExprLoopFolds(BinOpNode(s.op, acc, s.operand), steps[1..], rest);
      AdditiveLink(acc, s.op, s.operand, AdditiveChain(steps[1..], rest));
    }
  }

  /** The `term` loop folds a whole multiplicative chain to the left. */
  lemma {:induction false} TermLoopFolds(acc: Node, steps: seq<Step>, rest: seq<Token>)
    requires WellFormed(acc) && MultiplicativeSteps(steps) && Pending(rest)
    requires !IsMulOp(rest[0].kind)
    ensures Pending(MultiplicativeChain(steps, rest))
    ensures TermLoop(acc, MultiplicativeChain(steps, rest)) == Ok(Parsed(FoldLeft(acc, steps), rest))
    decreases |steps|
  {
    if |steps| > 0 {
      var s := steps[0];
      MultiplicativeTail(steps);
      TermLoopFolds(BinOpNode(s.op, acc, s.operand), steps[1..], rest);
      MultiplicativeLink(acc, s.op, s.operand, MultiplicativeChain(steps[1..], rest));
    }
  }

  /** `+` and `-` associate to the left: `a - b + c - d` parses to
      `((a - b) + c) - d`, whatever the operands are. */
  lemma SumsAssociateLeft(first: Node, steps: seq<Step>)
    requires WellFormed(first) && AdditiveSteps(steps)
    ensures Framed(TermTokens(first) + AdditiveChain(steps, [Token(Eof, "")]))
    ensures Parse(TermTokens(first) + AdditiveChain(steps, [Token(Eof, "")])) == Ok(FoldLeft(first, steps))
  {
    var chain := AdditiveChain(steps, [Token(Eof, "")]);
    ExprLoopFolds(first, steps, [Token(Eof, "")]);
    TermRoundTrip(first, chain);
    TermStartsExpr(TermTokens(first) + chain, first, chain);
  }

  /** `*` and `/` associate to the left: `a / b * c` parses to
      `(a / b) * c`. */
  lemma ProductsAssociateLeft(first: Node, steps: seq<Step>)
    requires WellFormed(first) && MultiplicativeSteps(steps)
    ensures Framed(FactorTokens(first) + MultiplicativeChain(steps, [Token(Eof, "")]))
    ensures Parse(FactorTokens(first) + MultiplicativeChain(steps, [Token(Eof, "")])) == Ok(FoldLeft(first, steps))
  {
    var chain := MultiplicativeChain(steps, [Token(Eof, "")]);
    TermLoopFolds(first, steps, [Token(Eof, "")]);
    FactorRoundTrip(first, chain);
    FactorIsTerm(FactorTokens(first) + chain, first, chain);
  }

  /** A `factor` starts the `term` loop. */
  lemma FactorIsTerm(ts: seq<Token>, n: Node, rest: seq<Token>)
    requires Pending(ts) && Factor(ts) == Ok(Parsed(n, rest))
    requires TermLoop(n, rest).Ok? && !IsAddOp(TermLoop(n, rest).value.rest[0].kind)
    ensures Term(ts) == TermLoop(n, rest)
    ensures Expr(ts) == TermLoop(n, rest)
  {
  }

  /** A number or identifier token. */
  predicate IsAtom(t: Token) {
    (t.kind == Number || t.kind == Ident) && Fits(t)
  }

  /** The leaf the parser builds for an atom. */
  function Atom(t: Token): (n: Node)
    requires IsAtom(t)
    ensures WellFormed(n) && FactorTokens(n) == [t]
  {
    if t.kind == Number then NewNumberNode(t.lexeme) else IdNode(t.lexeme)
  }

  /** An atom prints as its own token at every level. */
  lemma AtomTokens(t: Token)
    requires IsAtom(t)
    ensures ExprTokens(Atom(t)) == [t] && TermTokens(Atom(t)) == [t] && FactorTokens(Atom(t)) == [t]
  {
  }

  /** How an additive node prints at each level. */
  lemma PrintsAdditive(op: string, l: Node, r: Node)
    requires (op == "+" || op == "-") && WellFormed(l) && WellFormed(r)
    ensures WellFormed(BinOpNode(op, l, r))
    ensures ExprTokens(BinOpNode(op, l, r)) == ExprTokens(l) + [OpToken(op)] + TermTokens(r)
    ensures TermTokens(BinOpNode(op, l, r)) == FactorTokens(BinOpNode(op, l, r))
         == [Token(LParen, "(")] + ExprTokens(BinOpNode(op, l, r)) + [Token(RParen, ")")]
  {
  }

  /** How a multiplicative node prints at each level. */
  lemma PrintsMultiplicative(op: string, l: Node, r: Node)
    requires (op == "*" || op == "/") && WellFormed(l) && WellFormed(r)
    ensures WellFormed(BinOpNode(op, l, r))
    ensures ExprTokens(BinOpNode(op, l, r)) == TermTokens(BinOpNode(op, l, r))
         == TermTokens(l) + [OpToken(op)] + FactorTokens(r)
  {
  }

  /** `*` and `/` bind tighter than `+` and `-` on the right:
      `a + b * c` is `a + (b * c)`. */
  lemma ProductBindsTighterOnRight(a: Token, b: Token, c: Token, add: string, mul: string)
    requires IsAtom(a) && IsAtom(b) && IsAtom(c)
    requires (add == "+" || add == "-") && (mul == "*" || mul == "/")
    ensures Framed([a, OpToken(add), b, OpToken(mul), c, Token(Eof, "")])
    ensures Parse([a, OpToken(add), b, OpToken(mul), c, Token(Eof, "")])
         == Ok(BinOpNode(add, Atom(a), BinOpNode(mul, Atom(b), Atom(c))))
  {
    AtomTokens(a);
    AtomTokens(b);
    AtomTokens(c);
    var product := BinOpNode(mul, Atom(b), Atom(c));
    PrintsMultiplicative(mul, Atom(b), Atom(c));
    PrintsAdditive(add, Atom(a), product);
    FiveThenEof(a, OpToken(add), b, OpToken(mul), c);
    ParseRoundTrip(BinOpNode(add, Atom(a), product));
  }

  /** ... and on the left: `a * b + c` is `(a * b) + c`. */
  lemma ProductBindsTighterOnLeft(a: Token, b: Token, c: Token, add: string, mul: string)
    requires IsAtom(a) && IsAtom(b) && IsAtom(c)
    requires (add == "+" || add == "-") && (mul == "*" || mul == "/")
    ensures Framed([a, OpToken(mul), b, OpToken(add), c, Token(Eof, "")])
    ensures Parse([a, OpToken(mul), b, OpToken(add), c, Token(Eof, "")])
         == Ok(BinOpNode(add, BinOpNode(mul, Atom(a), Atom(b)), Atom(c)))
  {
    AtomTokens(a);
    AtomTokens(b);
    AtomTokens(c);
    var product := BinOpNode(mul, Atom(a), Atom(b));
    PrintsMultiplicative(mul, Atom(a), Atom(b));
    PrintsAdditive(add, product, Atom(c));
    FiveThenEof(a, OpToken(mul), b, OpToken(add), c);
    ParseRoundTrip(BinOpNode(add, product, Atom(c)));
  }

  lemma FiveThenEof(a: Token, o1: Token, b: Token, o2: Token, c: Token)
    ensures [a] + [o1] + ([b] + [o2] + [c]) + [Token(Eof, "")] == [a, o1, b, o2, c, Token(Eof, "")]
    ensures [a] + [o1] + [b] + [o2] + [c] + [Token(Eof, "")] == [a, o1, b, o2, c, Token(Eof, "")]
  {
  }

  predicate AllBlanks(g: string) {
    forall i :: 0 <= i < |g| ==> IsBlank(g[i])
  }

  /** Tokens laid out as text: each lexeme followed by its own run of
      blanks. */
  function Layout(ts: seq<Token>, gaps: seq<string>): string
    requires |gaps| == |ts|
    decreases |ts|
  {
    if |ts| == 0 then "" else ts[0].lexeme + gaps[0] + Layout(ts[1..], gaps[1..])
  }

  /** The blanks between two tokens may be left out only next to an
      operator or a parenthesis; elsewhere two words would fuse. */
  predicate Separated(ts: seq<Token>, gaps: seq<string>)
    requires |gaps| == |ts| && AllReal(ts)
  {
    && (forall i :: 0 <= i < |gaps| ==> AllBlanks(gaps[i]))
    && (forall i :: 0 <= i < |ts| - 1 ==>
          |gaps[i]| > 0 || IsPunct(ts[i].lexeme[0]) || IsPunct(ts[i + 1].lexeme[0]))
  }

  /** Laying out two token lists one after the other. */
  lemma {:induction false} LayoutAppend(a: seq<Token>, ga: seq<string>, b: seq<Token>, gb: seq<string>)
    requires |ga| == |a| && |gb| == |b|
    ensures Layout(a + b, ga + gb) == Layout(a, ga) + Layout(b, gb)
    decreases |a|
  {
    if |a| == 0 {
      assert a + b == b && ga + gb == gb;
    } else {
      LayoutAppend(a[1..], ga[1..], b, gb);
      assert (a + b)[1..] == a[1..] + b;
      assert (ga + gb)[1..] == ga[1..] + gb;
    }
  }

  /** A run of blanks adds no token. */
  lemma {:induction false} ScanBlanks(g: string, rest: string)
    requires AllBlanks(g) && Lexer.InDomain(g + rest)
    ensures Lexer.InDomain(rest)
    ensures Lexer.Scan(g + rest) == Lexer.Scan(rest)
    decreases |g|
  {
    if |g| > 0 {
      assert g + rest == [g[0]] + (g[1..] + rest);
      LexerFacts.ScanBlank(g[0], g[1..] + rest);
      ScanBlanks(g[1..], rest);
    } else {
      assert g + rest == rest;
    }
  }

  lemma {:induction false} LayoutInDomain(ts: seq<Token>, gaps: seq<string>)
    requires |gaps| == |ts| && AllReal(ts) && Separated(ts, gaps)
    ensures Lexer.InDomain(Layout(ts, gaps))
    ensures |ts| > 0 ==> Layout(ts, gaps)[0] == ts[0].lexeme[0]
    decreases |ts|
  {
    if |ts| > 0 {
      LexerFacts.LexemeChars(ts[0]);
      assert Separated(ts[1..], gaps[1..]);
      LayoutInDomain(ts[1..], gaps[1..]);
      var w, g, tail := ts[0].lexeme, gaps[0], Layout(ts[1..], gaps[1..]);
      var s := w + g + tail;
      assert forall j :: |w| <= j < |w| + |g| ==> s[j] == g[j - |w|];
      assert forall j :: |w| + |g| <= j < |s| ==> s[j] == tail[j - |w| - |g|];
    }
  }

  lemma SeparatedTail(ts: seq<Token>, gaps: seq<string>)
    requires |gaps| == |ts| > 0 && AllReal(ts) && Separated(ts, gaps)
    ensures AllReal(ts[1..]) && Separated(ts[1..], gaps[1..])
  {
    assert forall i :: 0 <= i < |ts| - 1 ==> ts[1..][i] == ts[i + 1] && gaps[1..][i] == gaps[i + 1];
  }

  /** What may follow a layout without fusing with its last token: the
      layout ends in blanks or in an operator or parenthesis, or the text
      after it ends or starts with a delimiter. */
  predicate Continues(ts: seq<Token>, gaps: seq<string>, rest: string)
    requires |gaps| == |ts| && AllReal(ts)
  {
    || |ts| == 0 || |gaps[|ts| - 1]| > 0 || IsPunct(ts[|ts| - 1].lexeme[0])
    || |rest| == 0 || IsDelimiter(rest[0])
  }

  lemma InDomainAppend(a: string, b: string)
    requires Lexer.InDomain(a) && Lexer.InDomain(b)
    ensures Lexer.InDomain(a + b)
  {
    assert forall j :: |a| <= j < |a + b| ==> (a + b)[j] == b[j - |a|];
  }

  lemma ContinuesTail(ts: seq<Token>, gaps: seq<string>, rest: string)
    requires |gaps| == |ts| > 0 && AllReal(ts) && Separated(ts, gaps) && Continues(ts, gaps, rest)
    ensures AllReal(ts[1..]) && Separated(ts[1..], gaps[1..]) && Continues(ts[1..], gaps[1..], rest)
  {
    SeparatedTail(ts, gaps);
    if |ts| > 1 {
      assert ts[1..][|ts| - 2] == ts[|ts| - 1] && gaps[1..][|ts| - 2] == gaps[|ts| - 1];
    }
  }

  lemma LayoutUnfold(ts: seq<Token>, gaps: seq<string>, rest: string)
    requires |gaps| == |ts| > 0
    ensures Layout(ts, gaps) + rest == ts[0].lexeme + (gaps[0] + (Layout(ts[1..], gaps[1..]) + rest))
  {
  }

  /** A layout starts with the first character of its first lexeme. */
  lemma LayoutHead(ts: seq<Token>, gaps: seq<string>)
    requires |gaps| == |ts| > 0 && Fits(ts[0]) && !Terminal(ts[0])
    ensures |ts[0].lexeme| > 0 && |Layout(ts, gaps)| > 0 && Layout(ts, gaps)[0] == ts[0].lexeme[0]
  {
    LexerFacts.LexemeChars(ts[0]);
  }

  /** The text after the first token of a layout starts where that token's
      match must stop. */
  lemma LayoutBoundary(ts: seq<Token>, gaps: seq<string>, rest: string)
    requires |gaps| == |ts| > 0 && AllReal(ts) && Separated(ts, gaps) && Continues(ts, gaps, rest)
    ensures var after := gaps[0] + (Layout(ts[1..], gaps[1..]) + rest);
      |after| == 0 || IsDelimiter(after[0]) || IsPunct(ts[0].lexeme[0])
  {
    var g, tail := gaps[0], Layout(ts[1..], gaps[1..]);
    if |g| > 0 {
      assert (g + (tail + rest))[0] == g[0];
    } else if |ts| > 1 {
      assert Fits(ts[1]) && !Terminal(ts[1]);
      LayoutHead(ts[1..], gaps[1..]);
      assert (g + (tail + rest))[0] == tail[0] == ts[1].lexeme[0];
      assert |gaps[0]| > 0 || IsPunct(ts[0].lexeme[0]) || IsPunct(ts[1].lexeme[0]);
    } else {
      assert g + (tail + rest) == rest;
    }
  }

  /** Blanks between tokens do not matter to the lexer, and none are needed
      beside an operator or a parenthesis: a layout of real tokens scans to
      exactly those tokens, followed by whatever the text after it scans
      to. */
  lemma {:induction false} ScanLayoutThen(ts: seq<Token>, gaps: seq<string>, rest: string)
    requires |gaps| == |ts| && AllReal(ts) && Separated(ts, gaps)
    requires Lexer.InDomain(rest) && Continues(ts, gaps, rest)
    ensures Lexer.InDomain(Layout(ts, gaps) + rest)
    ensures Lexer.Scan(Layout(ts, gaps) + rest) == ts + Lexer.Scan(rest)
    decreases |ts|
  {
    LayoutInDomain(ts, gaps);
    InDomainAppend(Layout(ts, gaps), rest);
    if |ts| == 0 {
      assert Layout(ts, gaps) + rest == rest;
    } else {
      ScanLayoutStep(ts, gaps, rest);
      ContinuesTail(ts, gaps, rest);
      ScanLayoutThen(ts[1..], gaps[1..], rest);
      ConsTail(ts, Lexer.Scan(rest));
    }
  }

  /** The first token of a layout and the blanks after it. */
  lemma ScanLayoutStep(ts: seq<Token>, gaps: seq<string>, rest: string)
    requires |gaps| == |ts| > 0 && AllReal(ts) && Separated(ts, gaps)
    requires Lexer.InDomain(Layout(ts, gaps) + rest) && Continues(ts, gaps, rest)
    ensures Lexer.InDomain(Layout(ts[1..], gaps[1..]) + rest)
    ensures Lexer.Scan(Layout(ts, gaps) + rest) == [ts[0]] + Lexer.Scan(Layout(ts[1..], gaps[1..]) + rest)
  {
    var t, g := ts[0], gaps[0];
    var tail := Layout(ts[1..], gaps[1..]);
    LayoutUnfold(ts, gaps, rest);
    LayoutBoundary(ts, gaps, rest);
    LexerFacts.ScanToken(t, g + (tail + rest));
    ScanBlanks(g, tail + rest);
  }

  lemma ConsTail(ts: seq<Token>, more: seq<Token>)
    requires |ts| > 0
    ensures [ts[0]] + (ts[1..] + more) == ts + more
  {
    assert ts == [ts[0]] + ts[1..];
  }

  /** A whole text laid out from real tokens scans to those tokens and
      EOF. */
  lemma ScanLayout(ts: seq<Token>, gaps: seq<string>)
    requires |gaps| == |ts| && AllReal(ts) && Separated(ts, gaps)
    ensures Lexer.InDomain(Layout(ts, gaps))
    ensures Lexer.Scan(Layout(ts, gaps)) == ts + [Token(Eof, "")]
  {
    ScanLayoutThen(ts, gaps, "");
    assert Layout(ts, gaps) + "" == Layout(ts, gaps);
  }

  /** One blank between consecutive tokens, none after the last. */
  function SingleBlanks(k: nat): (gaps: seq<string>)
    ensures |gaps| == k
  {
    seq(k, i => if i == k - 1 then "" else " ")
  }

  /** The printed text of a tree: its tokens separated by single blanks. */
  function Show(n: Node): string
    requires WellFormed(n)
  {
    Layout(ExprTokens(n), SingleBlanks(|ExprTokens(n)|))
  }

  /** The text round trip: lexing and parsing the printed text of any tree
      the parser can build gives back that tree. */
  lemma TextRoundTrip(n: Node)
    requires WellFormed(n)
    ensures Lexer.InDomain(Show(n))
    ensures Lexer.Tokenize(Show(n)) == Ok(ExprTokens(n) + [Token(Eof, "")])
    ensures ParseText(Show(n)) == Ok(n)
  {
    var ts := ExprTokens(n);
    ScanLayout(ts, SingleBlanks(|ts|));
    ParseRoundTrip(n);
  }
}

=== FILE: symbols.dfy ===
/** The symbol table (parser_edts.py:83-100): a dictionary from a name to
    the `Symbol` bound to it. The `tipo` field, always "number" and never
    read, is not modelled. */
module Symbols {
  import opened Wrappers
  import opened Values

  datatype Symbol = Symbol(name: string, value: Value)

  type Table = map<string, Symbol>

  /** The fresh table `SymbolTable()` starts with. */
  const Empty: Table := map[]

  /** `get(name)`: the bound symbol, or `None` for an unbound name; a
      lookup never fails. */
  function Get(t: Table, name: string): (r: Option<Symbol>)
    ensures r.Some? <==> name in t
    ensures r.Some? ==> r.value == t[name]
  {
    if name in t then Some(t[name]) else None
  }

  /** `add(name, valor=...)`: bind `name`, replacing any earlier binding
      of it and leaving every other name as it was. */
  function Add(t: Table, name: string, v: Value): (r: Table)
    ensures Get(r, name) == Some(Symbol(name, v))
    ensures forall k :: k != name ==> Get(r, k) == Get(t, k)
    ensures r.Keys == t.Keys + {name}
  {
    t[name := Symbol(name, v)]
  }

  /** Every key maps to a symbol of that name. */
  predicate Keyed(t: Table) {
    forall k :: k in t ==> t[k].name == k
  }

  /** Tables built from the empty table by `Add` stay keyed. */
  lemma AddKeepsKeyed(t: Table, name: string, v: Value)
    requires Keyed(t)
    ensures Keyed(Add(t, name, v))
  {
    var r := Add(t, name, v);
    forall k | k in r
      ensures r[k].name == k
    {
      if k != name {
        assert Get(r, k) == Get(t, k);
      } else {
        assert Get(r, k) == Some(Symbol(name, v));
      }
    }
  }

  /** Last write wins: a second `add` of a name hides the first entirely. */
  lemma AddLastWriteWins(t: Table, name: string, v1: Value, v2: Value)
    ensures Add(Add(t, name, v1), name, v2) == Add(t, name, v2)
  {
    var a := Add(Add(t, name, v1), name, v2);
    var b := Add(t, name, v2);
    assert a.Keys == b.Keys;
    forall k | k in a
      ensures a[k] == b[k]
    {
      assert Get(a, k) == Get(b, k);
    }
  }

  /** Bindings of distinct names do not interfere, so the order in which a
      table is filled (the loop over a dict's items in `main`) changes no
      lookup; only the printed form, which is not modelled, shows it. */
  lemma AddCommutes(t: Table, x: string, vx: Value, y: string, vy: Value)
    requires x != y
    ensures Add(Add(t, x, vx), y, vy) == Add(Add(t, y, vy), x, vx)
  {
    var a := Add(Add(t, x, vx), y, vy);
    var b := Add(Add(t, y, vy), x, vx);
    assert a.Keys == b.Keys;
    forall k | k in a
      ensures a[k] == b[k]
    {
      assert Get(a, k) == Get(b, k);
    }
  }
}

=== FILE: tokens.dfy ===
/** Tokens (parser_edts.py:5-16, 20-23) and the error kinds the pipeline
    raises (parser_edts.py:46, 118, 123, 165, 178, 192, 195). */
module Tokens {
  import opened Literals

  /** The token types of the source. `Mismatch` is not a token the source
      yields: it marks the point in the lazy stream where pulling the next
      token raises, carrying the offending character as its lexeme. */
  datatype Kind = Number | Ident | Plus | Minus | Mul | Div | LParen | RParen | Eof | Mismatch

  datatype Token = Token(kind: Kind, lexeme: string)

  /** The stream ends here: end of input, or a lexical error. */
  predicate Terminal(t: Token) {
    t.kind == Eof || t.kind == Mismatch
  }

  /** The lexeme is one its kind's pattern accepts. */
  predicate Fits(t: Token) {
    match t.kind
    case Number => IsNumberLexeme(t.lexeme)
    case Ident => IsIdentifier(t.lexeme)
    case Plus => t.lexeme == "+"
    case Minus => t.lexeme == "-"
    case Mul => t.lexeme == "*"
    case Div => t.lexeme == "/"
    case LParen => t.lexeme == "("
    case RParen => t.lexeme == ")"
    case Eof => t.lexeme == ""
    case Mismatch => |t.lexeme| == 1 && (t.lexeme[0] == '.' || !IsAllowed(t.lexeme[0]))
  }

  /** The shape of every stream the lexer produces: a final terminal token,
      no terminal token before it, and every lexeme fitting its kind. */
  predicate Framed(ts: seq<Token>) {
    && |ts| > 0
    && Terminal(ts[|ts| - 1])
    && (forall i :: 0 <= i < |ts| - 1 ==> !Terminal(ts[i]))
    && (forall i :: 0 <= i < |ts| ==> Fits(ts[i]))
  }

  /** Only the end-of-input token has an empty lexeme. */
  lemma RealLexemeNonEmpty(t: Token)
    requires Fits(t) && !Terminal(t)
    ensures t.lexeme != ""
  {
  }

  /** What a framed stream says about each of its tokens. */
  lemma FramedTokens(ts: seq<Token>)
    requires Framed(ts)
    ensures forall i :: 0 <= i < |ts| - 1 ==> ts[i].kind != Eof && ts[i].lexeme != ""
    ensures ts[|ts| - 1].kind == Eof ==> ts[|ts| - 1] == Token(Eof, "")
  {
    forall i | 0 <= i < |ts| - 1
      ensures ts[i].kind != Eof && ts[i].lexeme != ""
    {
      RealLexemeNonEmpty(ts[i]);
    }
    assert Fits(ts[|ts| - 1]);
  }
}

module Errors {
  import opened Tokens

  /** The closed set of failures; each aborts the whole pipeline. */
  datatype Error =
    | LexError(text: string)                  // SyntaxError from the lexer
    | Expected(kind: Kind, found: Token)      // SyntaxError from `eat`
    | UnexpectedFactor(found: Token)          // SyntaxError from `factor`
    | TrailingInput(found: Token)             // SyntaxError from `parse`
    | UndefinedIdentifier(name: string)       // NameError
    | DivisionByZero                          // ZeroDivisionError
    | UnknownOperator(op: string)             // ValueError

  /** The failures Python reports as `SyntaxError`: the lexer's and the
      parser's. */
  predicate IsSyntaxError(e: Error) {
    e.LexError? || e.Expected? || e.UnexpectedFactor? || e.TrailingInput?
  }
}

=== FILE: values.dfy ===
/** Python's numeric tower as the evaluator sees it: an `int` or a `float`.
    Floats are modelled as exact reals (parser_edts.py:60, 184-193). */
module Values {
  import opened Wrappers
  import opened Literals
  import opened Errors

  datatype Value = Int(i: int) | Flt(r: real)

  /** The mathematical number a value denotes. */
  function Real(v: Value): real {
    match v
    case Int(i) => i as real
    case Flt(r) => r
  }

  /** The four operator lexemes the grammar can produce (parser_edts.py:76). */
  predicate IsArithOp(op: string) {
    op == "+" || op == "-" || op == "*" || op == "/"
  }

  /** `float(text)` if the literal has a '.', else `int(text)`
      (parser_edts.py:60). The fractional part is read exactly. */
  function LiteralValue(text: string): (v: Value)
    ensures v.Int? <==> '.' !in text
  {
    var k := DotIndex(text);
    if k == |text| then Int(DigitsValue(text))
    else
      var frac := text[k + 1..];
      Flt(DigitsValue(text[..k]) as real + DigitsValue(frac) as real / Pow10(|frac|) as real)
  }

  /** A decimal literal `p.q` denotes the digits `pq` scaled down by
      `10^|q|`, so the point only moves the decimal place. */
  lemma DecimalLiteralScales(p: string, q: string)
    requires AllDigits(p) && AllDigits(q)
    ensures LiteralValue(p + "." + q) == Flt(DigitsValue(p + q) as real / Pow10(|q|) as real)
  {
    var w := p + "." + q;
    DotIndexAfterDigits(p, q);
    assert w[..|p|] == p;
    assert w[|p| + 1..] == q;
    var a, b, n := DigitsValue(p), DigitsValue(q), Pow10(|q|);
    assert LiteralValue(w) == Flt(a as real + b as real / n as real);
    DigitsValueAppend(p, q);
    ScaleDown(DigitsValue(p + q), a, b, n);
  }

  lemma ScaleDown(c: int, a: int, b: int, n: int)
    requires n > 0 && c == a * n + b
    ensures c as real / n as real == a as real + b as real / n as real
  {
    assert c as real == a as real * n as real + b as real;
  }

  lemma DotIndexAfterDigits(p: string, q: string)
    requires AllDigits(p)
    ensures DotIndex(p + "." + q) == |p|
  {
    var w := p + "." + q;
    assert w[|p|] == '.';
    assert forall i :: 0 <= i < |p| ==> w[i] == p[i] && w[i] != '.';
  }

  /** An integer literal denotes exactly the number whose digits it spells. */
  lemma IntegerLiteralRoundTrip(n: nat)
    ensures LiteralValue(NatToDigits(n)) == Int(n)
  {
    DigitsValueOfNatToDigits(n);
    var w := NatToDigits(n);
    assert forall i :: 0 <= i < |w| ==> w[i] != '.';
  }

  lemma IntProductIsExact(x: int, y: int)
    ensures (x * y) as real == x as real * y as real
  {
  }

  /** The operator on exact numbers: `None` for an unknown operator or a
      zero divisor. */
  function RealOp(op: string, x: real, y: real): Option<real> {
    if op == "+" then Some(x + y)
    else if op == "-" then Some(x - y)
    else if op == "*" then Some(x * y)
    else if op == "/" && y != 0.0 then Some(x / y)
    else None
  }

  /** `left op right` with Python's int/float promotion: `+`, `-` and `*`
      stay `int` on two ints and become `float` otherwise; `/` is true
      division and always yields a `float`; a zero divisor (`0` or `0.0`)
      raises ZeroDivisionError; any other operator raises ValueError. */
  function Apply(op: string, a: Value, b: Value): (r: Result<Value, Error>)
    ensures r.Ok? <==> IsArithOp(op) && !(op == "/" && Real(b) == 0.0)
    ensures r.Err? ==> r.error == (if IsArithOp(op) then DivisionByZero else UnknownOperator(op))
    ensures r.Ok? ==> RealOp(op, Real(a), Real(b)) == Some(Real(r.value))
    ensures r.Ok? ==> (r.value.Int? <==> op != "/" && a.Int? && b.Int?)
  {
    var x, y := Real(a), Real(b);
    var both := a.Int? && b.Int?;
    if op == "+" then
      Ok(if both then Int(a.i + b.i) else Flt(x + y))
    else if op == "-" then
      Ok(if both then Int(a.i - b.i) else Flt(x - y))
    else if op == "*" then
      var v := if both then IntProduct(a, b) else Flt(x * y);
      assert Real(v) == x * y;
      RealOpOfProduct(x, y);
      Ok(v)
    else if op == "/" then
      if y == 0.0 then Err(DivisionByZero) else Ok(Flt(x / y))
    else
      Err(UnknownOperator(op))
  }

  lemma RealOpOfProduct(x: real, y: real)
    ensures RealOp("*", x, y) == Some(x * y)
  {
  }

  /** The `int` product of two `int`s denotes the product of the numbers. */
  function IntProduct(a: Value, b: Value): (v: Value)
    requires a.Int? && b.Int?
    ensures v.Int? && Real(v) == Real(a) * Real(b)
  {
    IntProductIsExact(a.i, b.i);
    Int(a.i * b.i)
  }
}

=== FILE: wrappers.dfy ===
/** Option and Result, the failure-compatible datatypes the rest of the model
    uses in place of Python's `None` returns and raised exceptions. */
module Wrappers {

  /** `None` stands for Python's `None` result of a dictionary lookup. */
  datatype Option<+T> = None | Some(value: T)

  /** `Err` stands for an exception that aborts the current pipeline. */
  datatype Result<+T, +E> = Ok(value: T) | Err(error: E) {

    predicate IsFailure() {
      Err?
    }

    function PropagateFailure<U>(): Result<U, E>
      requires Err?
    {
      Err(error)
    }

    function Extract(): T
      requires Ok?
    {
      value
    }
  }
}
